=== FILE: README.md ===
# RdpClient session control, modelled in Dafny

This project models the session-control core of `RdpClient`, the Qt class
behind the VirWork remote-desktop client, which drives the Microsoft
Terminal Services ActiveX control (MsTscAx). The client is a small,
single-threaded state machine:

- the application fills in the connection and display properties through
  change-only setters;
- `connectToServer` validates the server and user name;
- on first use it creates the ActiveX control and binds the newest client
  interface it answers to (`IMsRdpClient10`, else `IMsRdpClient9`, else the
  widget itself);
- it pushes the settings to the control (partly through the
  `AdvancedSettings9`/`AdvancedSettings` sub-object), binds the
  remote-program object in remote-app mode, shows the session window and
  calls `Connect()`;
- the control's callbacks (`OnConnected`, `OnDisconnected`,
  `OnLoginComplete`, `OnFatalError`) drive the `connected` flag;
- after login in remote-app mode the configured program is started through
  two `ServerStartProgram` signatures, tried in order.

The ActiveX engine is not modelled. It is an oracle (`RdpEngine.Engine`) that
fixes:

- whether constructing the control yields a control, a null pointer or an
  exception;
- which sub-objects exist;
- which calls throw.

Every transition is a pure function from a client state (and the engine) to
a `Step`: the new state, the engine calls made in order, and the signals
emitted in order. Error messages are error kinds (`ConnectionFault`,
`AppFault`), not strings.

Files, one module each:

- `maybe.dfy`: `Option`.
- `rdp_engine.dfy`: the engine oracle and three generic patterns:
  - the newest-first lookup `Resolve`;
  - the abort-on-first-throw sequence `RunUntilThrow`;
  - the first-success fallback `FirstSuccess`.
- `client_state.dfy`: the state record, its defaults from the constructor,
  `getRdpControl` and `setRdpProperty`.
- `setters.dfy`: the eighteen change-only setters and the getter.
- `configure.dfy`: `configureClient`.
- `remote_app.dfy`: `configureRemoteApp` and `startRemoteApp`.
- `session.dfy`: `initializeControl`, `connectToServer`,
  `disconnectFromServer` and the four callbacks.
- `driver.dfy`: a client driven by any sequence of events against one
  engine, with the properties that hold over whole runs, and two end-to-end
  sessions.

The code does not apply the settings one by one, and in remote-app mode it
does not abort the connect. In detail:

- `configureClient` returns as soon as neither advanced-settings interface
  exists. The user name, resolution, colour depth, title and full-screen
  flag are then never set, though they do not go through that object.
- An exception anywhere in `configureClient` abandons every remaining
  property set. Sets are not attempted one by one.
- A failed remote-program lookup only emits `remoteAppError`. `Connect()` is
  still called.
- Nothing is read back after a property set.
- Disconnecting does not release the remote-program object.
- `disconnectFromServer` emits no `connectedChanged`.
- When the very first remote-program query throws, the previously bound
  object stays bound, because the assignment never happens.
- A control whose creation failed is created again on the next validated
  connect. "At most one control creation" therefore holds on an engine where
  creation succeeds (`Driver.RunCreatesAtMostOnce`).
- The bitmap-cache property is sent under the name the code uses,
  `BitmapPeristence`.

## Model

| member | source | states |
|---|---|---|
| RdpEngine.Resolve | RDC/RDC/RdpClient.cpp:84-95 | The lookup queries the candidates in order and stops at the first that exists or throws. What it finds is the first existing candidate queried, and it throws exactly when the last query made threw. |
| RdpEngine.ResolvePairIsNewest | RDC/RDC/RdpClient.cpp:150-154 | For two candidates the lookup agrees with the reference `Newest` (the newer if it exists, else the older, else nothing). It throws exactly when `FallbackThrows` says so. |
| RdpEngine.RunUntilThrow | RDC/RDC/RdpClient.cpp:142-211 | Calls inside one try block: those issued are a prefix of the planned ones, and only the last issued may have thrown. If some are left out, the last issued threw. All are issued without a throw exactly when no planned call throws. |
| RdpEngine.FirstSuccess | RDC/RDC/RdpClient.cpp:472-516 | Strategies are tried in order until one returns: every attempt before the last threw, and a later strategy is tried only when all before it threw. The run succeeds exactly when some strategy would return. |
| ClientState.DefaultStoreComplete | RDC/RDC/RdpClient.cpp:6-14 | The constructor gives every property a value. |
| ClientState.NewClient | RDC/RDC/RdpClient.cpp:6-14 | A new client has no control, interface, window or remote program, is not connected and is `Valid`. Its defaults are the constructor's: port 3389, 1920x1080 at 32 bits, title "VirWork Client", sound and clipboard on, printers, full screen, remote-app mode and both expansions off, empty server, user and path. |
| ClientState.GetRdpControl | RDC/RDC/RdpClient.cpp:119-125 | The bound client interface when there is one, else the widget when it exists, else nothing. On a `Valid` client there is a control exactly when the widget exists. |
| ClientState.SetRdpProperty | RDC/RDC/RdpClient.cpp:119-134 | A property set lands on the object `getRdpControl` names: the bound client interface, else the widget. Without a control nothing is set. |
| Setters.Assign | RDC/RDC/RdpClient.cpp:296-371 | After a setter the getter returns the new value and every other property reads as before. Nothing else in the client changes and no engine call is made. One change signal is emitted exactly when the value differed. |
| Setters.AssignIdempotent | RDC/RDC/RdpClient.cpp:537-584 | Calling the same setter twice: the second call changes nothing and emits nothing. |
| Setters.AssignCommutes | RDC/RDC/RdpClient.cpp:303-315 | Setters of two different properties commute: the same final state and the same multiset of signals. |
| Configure.Plan | RDC/RDC/RdpClient.cpp:161-206 | The planned sets name exactly the given properties in order. Each carries the client's value for that property and goes to the object the code sends it to. |
| Configure.ApplySettings | RDC/RDC/RdpClient.cpp:150-207 | After the server, only queries and property sets are issued, and only the last issued may have thrown. |
| Configure.SettingsShape | RDC/RDC/RdpClient.cpp:150-159 | The settings phase is the newest-first lookup of the settings interface, then, only if something was found, the planned sets run until one throws. |
| Configure.SettingsWritePrefix | RDC/RDC/RdpClient.cpp:156-206 | The properties the settings phase sets are a prefix of the fixed order starting at the port. None is set when no settings interface exists. |
| Configure.SettingsComplete | RDC/RDC/RdpClient.cpp:161-205 | With a settings interface and no throwing call, all thirteen properties after the server are set, in the code's order. |
| Configure.SettingsAimed | RDC/RDC/RdpClient.cpp:161-205 | Every set in the settings phase carries the client's value for that property and targets the right object. |
| Configure.ConfigureClient | RDC/RDC/RdpClient.cpp:136-212 | No control means no call. Otherwise the server is set first on the resolved control, only property sets and queries follow, and only the last may have thrown. |
| Configure.ConfigureWritesPrefix | RDC/RDC/RdpClient.cpp:142-211 | The properties set form a prefix of the code's fourteen-property order, because an exception abandons the rest. |
| Configure.ConfigureWithoutSettings | RDC/RDC/RdpClient.cpp:156-159 | Without either advanced-settings interface the server is the only property set on a control, and without a control nothing is set. Port, user name, resolution, colour depth, title and full-screen are never set. |
| Configure.ConfigureComplete | RDC/RDC/RdpClient.cpp:146-206 | With a settings interface and no throwing call, exactly the fourteen properties are set, in order. |
| Configure.ConfigureTargetsAndValues | RDC/RDC/RdpClient.cpp:146-205 | Every set carries the client's value for its property and goes to the settings object or the resolved control, as the code sends it. |
| Configure.ConfigureAudioMode | RDC/RDC/RdpClient.cpp:195-197 | An audio redirection mode that is set is 0 when sound is enabled and 2 otherwise. |
| RemoteApp.ConfigureRemoteApp | RDC/RDC/RdpClient.cpp:406-437 | Without a control or outside remote-app mode it does nothing. Otherwise it issues only queries and binds the newest remote-program interface found, unless the lookup threw. It reports `remoteAppError` exactly when the lookup threw or found nothing. If the first query threw, the old binding stays. |
| RemoteApp.StartRemoteApp | RDC/RDC/RdpClient.cpp:440-534 | With an empty path or no remote program there is no call and one error. Otherwise at least one attempt is made, and the QString signature is tried first and the BSTR signature only if that threw. Exactly one outcome signal is emitted: started exactly when the last attempt returned, else an error naming the last failure. The state, including `connected`, is unchanged. |
| Session.BindClientInterface | RDC/RDC/RdpClient.cpp:83-116 | Binds the newest client interface. A throwing query discards the widget, leaves nothing bound and reports `connectionError`. |
| Session.InitializeControl | RDC/RDC/RdpClient.cpp:64-117 | An existing control means no call and no change. Otherwise there is exactly one creation, first. A control results exactly when creation yields one and binding does not throw, and it is bound to the newest interface. Failure reports one `connectionError`: `ControlCreateFailed` for a null control, `ControlInitException` when creation or binding throws. |
| Session.ShowWindow | RDC/RDC/RdpClient.cpp:241-255 | The window is created on first use with the current server name, which later shows keep. It ends visible. |
| Session.PrepareRemoteApp | RDC/RDC/RdpClient.cpp:237-239 | Outside remote-app mode it does nothing. In it, only the remote-program binding changes, only queries are issued and only remote-app errors are reported. |
| Session.LaunchSession | RDC/RDC/RdpClient.cpp:235-267 | With a control, `Connect()` on the resolved control is the last call, whatever the remote-program lookup reported. The result is true exactly when `Connect()` did not throw. |
| Session.LaunchSessionOrder | RDC/RDC/RdpClient.cpp:235-261 | Before `Connect()` come only property sets and queries, so `Connect()` is issued once, last. |
| Session.LaunchSessionConfigures | RDC/RDC/RdpClient.cpp:235 | Launching begins with exactly the calls `configureClient` makes: the same properties, values and targets. It sets no other property. With `LaunchSessionOrder`, they all come before `Connect()`. |
| Session.LaunchSessionOutcome | RDC/RDC/RdpClient.cpp:252-267 | The window is shown and the settings and `connected` are untouched. A failure ends with the `connectionError` for the failed `Connect()`, and a success emits none. |
| Session.LaunchSessionProgram | RDC/RDC/RdpClient.cpp:238-239 | In remote-app mode the remote program bound is the one the lookup finds, unless it threw. Outside remote-app mode the binding is untouched. |
| Session.EstablishSession | RDC/RDC/RdpClient.cpp:225-267 | Succeeds exactly when a control exists afterwards and `Connect()` did not throw, which is then the last call. |
| Session.EstablishSessionOrder | RDC/RDC/RdpClient.cpp:241-261 | `Connect()` is issued only as the last call, and only with the window shown. |
| Session.EstablishSessionControl | RDC/RDC/RdpClient.cpp:225-233 | A missing control is created exactly once and an existing one never. An existing control keeps its binding. |
| Session.EstablishSessionBinds | RDC/RDC/RdpClient.cpp:226-233 | Starting without a control, one exists afterwards exactly when creation succeeds on the engine. |
| Session.EstablishSessionProgram | RDC/RDC/RdpClient.cpp:235-239 | The remote-program binding after the attempt, as the lookup leaves it. |
| Session.EstablishSessionSignals | RDC/RDC/RdpClient.cpp:229-266 | Without a control, the signals are the creation's own error followed by `ControlNotInitialized`. With a control, a failure ends with the `Connect()` failure. Only connection and remote-app errors are reported, and outside remote-app mode only connection errors. |
| Session.ConnectToServer | RDC/RDC/RdpClient.cpp:214-267 | An empty server is rejected first and an empty user name second, each with one error, no call and no change. The result is true exactly when validation passed, a control exists and `Connect()` did not throw. |
| Session.ConnectToServerOrder | RDC/RDC/RdpClient.cpp:241-261 | `Connect()` is issued at most once, as the last call, and only with the window shown. |
| Session.ConnectToServerControl | RDC/RDC/RdpClient.cpp:225-228 | A control is created exactly when validation passes and none exists. The properties and `connected` are untouched. |
| Session.ConnectToServerSignals | RDC/RDC/RdpClient.cpp:214-266 | A failed attempt ends with `connectionError` and a successful one emits none. After validation, a missing control gives the creation's own error followed by `ControlNotInitialized`, and a throwing `Connect()` ends with the `Connect()` failure. |
| Session.ConnectToServerBinds | RDC/RDC/RdpClient.cpp:226-228 | A validated connect without a control leaves one exactly when creation succeeds, bound to the newest client interface. |
| Session.ConnectToServerCalls | RDC/RDC/RdpClient.cpp:235-261 | A connect only creates, queries, sets properties and connects. It never disconnects and never starts a program. |
| Session.ConnectToServerProgram | RDC/RDC/RdpClient.cpp:237-239 | In remote-app mode, the remote program a validated connect binds. |
| Session.ConnectToServerConfigures | RDC/RDC/RdpClient.cpp:214-235 | A validated connect that leaves a control issues the initialisation calls and then exactly the calls `configureClient` makes on the initialised client, values and targets included. It sets no other property. A rejected connect, or one whose control cannot be created, sets none. |
| Session.DisconnectFromServer | RDC/RDC/RdpClient.cpp:270-291 | `Disconnect()` is issued exactly when a control exists and `connected` is set, at most once. Afterwards `connected` is false, the window (if any) is hidden and keeps its server name, nothing else changes and no signal is emitted. |
| Session.OnConnected | RDC/RDC/RdpClient.cpp:374-379 | `connected` becomes true, then `connectedChanged` and `connectionSuccess` are emitted. |
| Session.OnDisconnected | RDC/RDC/RdpClient.cpp:381-385 | `connected` becomes false and only `connectedChanged` is emitted. The reason is ignored. |
| Session.OnFatalError | RDC/RDC/RdpClient.cpp:397-403 | `connected` becomes false, and exactly `connectedChanged` then a `connectionError` carrying the code are emitted. |
| Session.OnLoginComplete | RDC/RDC/RdpClient.cpp:387-395 | In remote-app mode the step is exactly `startRemoteApp`; otherwise nothing happens. So an empty path or a missing remote program gives its error and no call, every call is a `ServerStartProgram` on the bound program, and `remoteAppStarted` is emitted exactly when the first signature was tried and the last attempt returned. The state never changes. |
| Driver.Apply | RDC/RDC/RdpClient.cpp:98-105 | Every transition keeps a well-formed (`Valid`) client well formed. |
| Driver.RunValid | RDC/RDC/RdpClient.cpp:84-116 | From a well-formed client every run stays well formed: a bound interface is one of the two on the widget, and no window or remote program exists without a control. |
| Driver.RunConnected | RDC/RDC/RdpClient.cpp:374-403 | After any run, `connected` is what the callbacks and the disconnect call dictate (reference `ConnectedAfter`). Connecting never sets it. |
| Driver.RunReads | RDC/RDC/RdpClient.cpp:296-371 | After any run each getter returns the value the last setter call for it wrote, else its earlier value. Connects, disconnects and callbacks never change a property. |
| Driver.RunSetters | RDC/RDC/RdpClient.cpp:537-584 | A run of setter calls changes only the properties and makes no engine call. |
| Driver.RunKeepsControl | RDC/RDC/RdpClient.cpp:64-68 | Once the control exists it stays, and no event creates another. |
| Driver.RunCreatesAtMostOnce | RDC/RDC/RdpClient.cpp:225-228 | On an engine where creation succeeds, any sequence of events, however many connects it holds, creates the control at most once, and never if it already exists. |
| Driver.ConnectStartsNothing | RDC/RDC/RdpClient.cpp:235-267 | A connect starts no program and reports only connection or remote-app errors. |
| Driver.RemoteLogIn | RDC/RDC/RdpClient.cpp:387-395 | In remote-app mode with a bound program and a path, the connection and login callbacks leave `connected` set. They start the program once, by the first signature when that returns, and report the start last. |
| Driver.DesktopSession | RDC/RDC/RdpClient.cpp:214-263 | A new client given a server and user connects and receives the connection and login callbacks. It ends connected, having emitted only the two change signals, `connectedChanged` and `connectionSuccess`. |
| Driver.RemoteSession | RDC/RDC/RdpClient.cpp:440-520 | A remote-app connect followed by the connection and login callbacks starts the program exactly once. The start is the last engine call, on the bound remote program with the client's six arguments, and `remoteAppStarted` is the last signal and is emitted only there. |

## Left out

- The destructor (RDC/RDC/RdpClient.cpp:19-62) is object-lifetime plumbing: the teardown order and `deleteLater` are not modelled.
- `getWidget` returns a raw pointer to the UI and has no behaviour to state.
- The wiring of the ActiveX events and of the window's `disconnectRequested` to slots (RDC/RDC/RdpClient.cpp:98-105, 248-249) is taken as given. `Driver.Event` has one event per slot, and the window's disconnect request is the same event as the application's disconnect call. The code wires the four engine slots only once a control has been created; `Driver.Apply` also accepts an engine callback on a client without a control. The all-runs lemmas therefore cover more runs than the code can produce, and the two end-to-end sessions (`Driver.DesktopSession`, `Driver.RemoteSession`) send callbacks only after a connect.
- A `Step` records the engine calls in order and the signals in order, but not how signals interleave with calls. For example, `remoteAppError` (RDC/RDC/RdpClient.cpp:421) is emitted before `Connect()` (RDC/RDC/RdpClient.cpp:261), which the model does not show.
- The window (RdpWindow) is modelled only as absent, shown or hidden, with its server name. `raise`, `activateWindow`, `setRdpWidget` and the widget layout are not modelled.
- RDC/RDC/main.cpp (QML registration and start-up) is not part of this model.
- COM internals (CLSID creation, `querySubObject`, `dynamicCall`, `QVariant` conversion) are replaced by the engine oracle. A call either returns or throws, and the engine is fixed for a whole run.
- Logging (`qDebug`, `qWarning`, `qCritical`) and the localized message texts are left out. Errors are kinds.
- The distinction between a null and an empty `QString` is not modelled. The first launch strategy's `isEmpty() ? QString("") : x` substitution is therefore the identity, and the two strategies receive the same six values.
- `int` properties are unbounded integers. The client does no arithmetic on them, so the width does not matter.
- RemoteApp.StartRemoteApp: the outer `catch` blocks (RDC/RDC/RdpClient.cpp:527-533) are not modelled, because in the model nothing between the guards and the two attempts can throw.
- No asynchronous result of the remote-program start is modelled. The code has none: `remoteAppStarted` means the call returned.

=== FILE: client_state.dfy ===
/**
 * The state record of the RDP client and the vocabulary its transitions
 * speak: the signals it emits and the result of one transition.
 */
module ClientState {
  import opened Maybe
  import opened RdpEngine

  /** The session window: absent until the first connect creates it. The server
      name is written once, when the window is created. */
  datatype Window = NoWindow | Open(serverName: string, visible: bool)

  /** The string-valued user settings. */
  datatype TextField =
    | ServerField | UsernameField | FullScreenTitleField
    | ExecutablePathField | FilePathField | WorkingDirectoryField | ArgumentsField

  /** The integer-valued user settings. */
  datatype NumberField = PortField | DesktopWidthField | DesktopHeightField | ColorDepthField

  /** The boolean user settings. */
  datatype FlagField =
    | FullScreenField | EnableSoundField | EnableClipboardField | EnablePrinterField
    | RemoteAppModeField | ExpandWorkingDirectoryField | ExpandArgumentsField

  /** A user-settable property, one per change signal. */
  datatype Field = TextOf(text: TextField) | NumberOf(number: NumberField) | FlagOf(flag: FlagField)

  /** The stored settings, one table per value kind. */
  datatype Store = Store(
    texts: map<TextField, string>,
    numbers: map<NumberField, int>,
    flags: map<FlagField, bool>)

  /** Every property has a value: the client stores all of them from construction on. */
  predicate Complete(st: Store) {
    && (forall k: TextField :: k in st.texts)
    && (forall k: NumberField :: k in st.numbers)
    && (forall k: FlagField :: k in st.flags)
  }

  /** The constructor's defaults: port 3389, a 1920x1080 desktop at 32 bits,
      the title "VirWork Client", sound and clipboard redirected, printers not,
      remote-app mode off and every other string empty. */
  function DefaultStore(): Store {
    Store(
      map[ServerField := "", UsernameField := "", FullScreenTitleField := "VirWork Client",
          ExecutablePathField := "", FilePathField := "", WorkingDirectoryField := "",
          ArgumentsField := ""],
      map[PortField := 3389, DesktopWidthField := 1920, DesktopHeightField := 1080,
          ColorDepthField := 32],
      map[FullScreenField := false, EnableSoundField := true, EnableClipboardField := true,
          EnablePrinterField := false, RemoteAppModeField := false,
          ExpandWorkingDirectoryField := false, ExpandArgumentsField := false])
  }

  lemma DefaultStoreComplete()
    ensures Complete(DefaultStore())
  {
    var d := DefaultStore();
    forall k: TextField
      ensures k in d.texts
    {
      match k
      case ServerField | UsernameField | FullScreenTitleField | ExecutablePathField
           | FilePathField | WorkingDirectoryField | ArgumentsField =>
    }
    forall k: NumberField
      ensures k in d.numbers
    {
      match k
      case PortField | DesktopWidthField | DesktopHeightField | ColorDepthField =>
    }
    forall k: FlagField
      ensures k in d.flags
    {
      match k
      case FullScreenField | EnableSoundField | EnableClipboardField | EnablePrinterField
           | RemoteAppModeField | ExpandWorkingDirectoryField | ExpandArgumentsField =>
    }
  }

  /** The user-settable properties of a client: connection target, display,
      redirection, and the remote-app launch parameters. */
  type Properties = st: Store | Complete(st) witness (DefaultStoreComplete(); DefaultStore())

  /**
   * One client. `widget` says whether the ActiveX control exists,
   * `rdpClient` is the versioned client interface bound to it (if any) and
   * `remoteProgram` the remote-program sub-object (if any); `connected` is
   * the flag the engine callbacks drive.
   */
  datatype Client = Client(
    widget: bool,
    rdpClient: Option<Obj>,
    window: Window,
    props: Properties,
    connected: bool,
    remoteProgram: Option<Obj>)

  /** Why a `connectionError` was emitted. */
  datatype ConnectionFault =
    | EmptyServer
    | EmptyUsername
    | ControlCreateFailed
    | ControlInitException
    | ControlNotInitialized
    | ConnectCallFailed
    | Fatal(code: int)

  /** Why a `remoteAppError` was emitted. */
  datatype AppFault =
    | ProgramInterfaceUnavailable
    | ProgramQueryException
    | MissingExecutablePath
    | NoRemoteProgram
    | AllAttemptsFailed(last: Convention)

  datatype Signal =
    | Changed(field: Field)
    | ConnectedChanged
    | ConnectionSuccess
    | ConnectionError(fault: ConnectionFault)
    | RemoteAppStarted
    | RemoteAppError(appFault: AppFault)

  /** The outcome of one transition: new state, engine calls made, signals emitted. */
  datatype Step = Step(state: Client, calls: seq<Call>, signals: seq<Signal>)

  /** The stored value of a string, integer or boolean property. */
  function Text(s: Client, k: TextField): string {
    s.props.texts[k]
  }

  function Number(s: Client, k: NumberField): int {
    s.props.numbers[k]
  }

  function Flag(s: Client, k: FlagField): bool {
    s.props.flags[k]
  }

  function Defaults(): Properties {
    DefaultStoreComplete();
    DefaultStore()
  }

  /** A freshly constructed client: no control, no window, default properties. */
  function NewClient(): (r: Client)
    ensures Valid(r)
    ensures !r.widget && r.rdpClient.None? && r.window == NoWindow && r.remoteProgram.None?
    ensures GetRdpControl(r).None?
    ensures !r.connected
    ensures Number(r, PortField) == 3389 && Number(r, DesktopWidthField) == 1920
    ensures Number(r, DesktopHeightField) == 1080 && Number(r, ColorDepthField) == 32
    ensures Text(r, FullScreenTitleField) == "VirWork Client"
    ensures Flag(r, EnableSoundField) && Flag(r, EnableClipboardField)
    ensures !Flag(r, FullScreenField) && !Flag(r, EnablePrinterField) && !Flag(r, RemoteAppModeField)
    ensures !Flag(r, ExpandWorkingDirectoryField) && !Flag(r, ExpandArgumentsField)
    ensures Text(r, ServerField) == [] && Text(r, UsernameField) == [] && Text(r, ExecutablePathField) == []
  {
    Client(widget := false, rdpClient := None, window := NoWindow, props := Defaults(),
           connected := false, remoteProgram := None)
  }

  /** Structural facts every reachable client satisfies: a bound client
      interface is one of the two versioned ones on the widget, and nothing hangs
      off a control that does not exist. */
  predicate Valid(s: Client) {
    && (s.rdpClient.Some? ==>
          s.widget && s.rdpClient.value in {Sub(Widget, IMsRdpClient10), Sub(Widget, IMsRdpClient9)})
    && (s.window.Open? ==> s.widget)
    && (s.remoteProgram.Some? ==> s.widget)
  }

  /** The object method calls go to: the bound client interface, else the widget. */
  function GetRdpControl(s: Client): (r: Option<Obj>)
    ensures s.rdpClient.Some? ==> r == s.rdpClient
    ensures s.rdpClient.None? ==> (r.Some? <==> s.widget) && (r.Some? ==> r.value == Widget)
    ensures Valid(s) ==> (r.Some? <==> s.widget)
  {
    if s.rdpClient.Some? then s.rdpClient
    else if s.widget then Some(Widget)
    else None
  }

  /**
   * Sets one property on the client interface if bound, else on the widget if
   * it exists, else nowhere. It always lands on the object `GetRdpControl`
   * names, so property sets and method calls share one target.
   */
  function SetRdpProperty(s: Client, p: Prop, v: Value): (calls: seq<Call>)
    ensures GetRdpControl(s).Some? ==> calls == [SetProperty(GetRdpControl(s).value, p, v)]
    ensures GetRdpControl(s).None? ==> calls == []
  {
    match s.rdpClient
    case Some(c) => [SetProperty(c, p, v)]
    case None => if s.widget then [SetProperty(Widget, p, v)] else []
  }
}

=== FILE: configure.dfy ===
/**
 * The property applier: pushing the client's settings onto the engine before
 * a connect. The whole sequence runs inside one try-block, so the first
 * property set that throws abandons every later one, and a missing
 * advanced-settings object ends the sequence right after the server address.
 */
module Configure {
  import opened Maybe
  import opened RdpEngine
  import opened ClientState

  /** Candidate advanced-settings interfaces, newest first. */
  const SettingsInterfaces: seq<SubName> := [AdvancedSettings9, AdvancedSettings]

  /** The properties written after the advanced-settings lookup, in order. */
  const SettingsOrder: seq<Prop> := [
    RdpPort, UserName, DesktopWidth, DesktopHeight, ColorDepth,
    FullScreenTitle, FullScreen,
    Compress, BitmapPeristence, AllowDesktopComposition,
    AudioRedirectionMode, RedirectClipboard, RedirectPrinters]

  /** The order in which all properties are written: the server address first. */
  const PropOrder: seq<Prop> := [Server] + SettingsOrder

  /** Properties that live on the advanced-settings object rather than on the control. */
  predicate OnSettings(p: Prop) {
    match p
    case RdpPort | Compress | BitmapPeristence | AllowDesktopComposition
         | AudioRedirectionMode | RedirectClipboard | RedirectPrinters => true
    case _ => false
  }

  /** The object property `p` is written on, given the control and its advanced settings. */
  function TargetFor(p: Prop, ctl: Obj, adv: Obj): Obj {
    if OnSettings(p) then adv else ctl
  }

  /** Audio redirection mode: 0 plays on this computer, 2 does not play. */
  function AudioMode(enableSound: bool): int {
    if enableSound then 0 else 2
  }

  /** The value each property receives. */
  function ValueFor(s: Client, p: Prop): Value {
    match p
    case Server => StrVal(Text(s, ServerField))
    case RdpPort => IntVal(Number(s, PortField))
    case UserName => StrVal(Text(s, UsernameField))
    case DesktopWidth => IntVal(Number(s, DesktopWidthField))
    case DesktopHeight => IntVal(Number(s, DesktopHeightField))
    case ColorDepth => IntVal(Number(s, ColorDepthField))
    case FullScreenTitle => StrVal(Text(s, FullScreenTitleField))
    case FullScreen => BoolVal(Flag(s, FullScreenField))
    case Compress => IntVal(1)
    case BitmapPeristence => IntVal(1)
    case AllowDesktopComposition => BoolVal(true)
    case AudioRedirectionMode => IntVal(AudioMode(Flag(s, EnableSoundField)))
    case RedirectClipboard => BoolVal(Flag(s, EnableClipboardField))
    case RedirectPrinters => BoolVal(Flag(s, EnablePrinterField))
  }

  /** The advanced-settings object the newest-first fallback would bind on the current control. */
  function SettingsOf(s: Client, e: Engine): Option<Obj> {
    match GetRdpControl(s)
    case None => None
    case Some(ctl) => Newest(e, ctl, AdvancedSettings9, AdvancedSettings)
  }

  /** The properties written by a run of calls, in order. */
  function PropsIssued(calls: seq<Call>): seq<Prop> {
    if calls == [] then []
    else (if calls[0].SetProperty? then [calls[0].prop] else []) + PropsIssued(calls[1..])
  }

  lemma {:induction false} PropsIssuedAppend(a: seq<Call>, b: seq<Call>)
    ensures PropsIssued(a + b) == PropsIssued(a) + PropsIssued(b)
  {
    if a == [] {
      assert a + b == b;
    } else {
      var ab := a + b;
      var first := if a[0].SetProperty? then [a[0].prop] else [];
      assert ab[0] == a[0];
      assert ab[1..] == a[1..] + b;
      PropsIssuedAppend(a[1..], b);
      calc {
        PropsIssued(ab);
        first + PropsIssued(a[1..] + b);
        first + (PropsIssued(a[1..]) + PropsIssued(b));
        (first + PropsIssued(a[1..])) + PropsIssued(b);
      }
    }
  }

  lemma {:induction false} PropsIssuedOfSets(calls: seq<Call>)
    requires forall c :: c in calls ==> c.SetProperty?
    ensures |PropsIssued(calls)| == |calls|
    ensures forall i :: 0 <= i < |calls| ==> PropsIssued(calls)[i] == calls[i].prop
  {
    if calls != [] {
      PropsIssuedOfSets(calls[1..]);
    }
  }

  /** Calls that set no property (queries, creation, `Connect()`) contribute no property. */
  lemma {:induction false} PropsIssuedOfNonSets(calls: seq<Call>)
    requires forall c :: c in calls ==> !c.SetProperty?
    ensures PropsIssued(calls) == []
  {
    if calls != [] {
      assert calls[0] in calls;
      assert forall c :: c in calls[1..] ==> c in calls;
      PropsIssuedOfNonSets(calls[1..]);
    }
  }

  /** A property set that carries the client's value and lands on the property's own object. */
  predicate Aimed(s: Client, ctl: Obj, adv: Obj, c: Call) {
    c.SetProperty? && c.value == ValueFor(s, c.prop) && c.target == TargetFor(c.prop, ctl, adv)
  }

  /** One property set per property of `ps`, in that order. */
  function Plan(s: Client, ctl: Obj, adv: Obj, ps: seq<Prop>): (plan: seq<Call>)
    ensures PropsIssued(plan) == ps
    ensures forall c :: c in plan ==> Aimed(s, ctl, adv, c)
  {
    if ps == [] then []
    else
      var first := SetProperty(TargetFor(ps[0], ctl, adv), ps[0], ValueFor(s, ps[0]));
      var rest := Plan(s, ctl, adv, ps[1..]);
      assert ([first] + rest)[1..] == rest;
      [first] + rest
  }

  /** The properties written by an initial segment of a run of property sets
      are the same initial segment of the properties it was meant to write. */
  lemma {:induction false} PrefixProps(plan: seq<Call>, k: nat)
    requires forall c :: c in plan ==> c.SetProperty?
    requires k <= |plan|
    ensures |PropsIssued(plan)| == |plan|
    ensures PropsIssued(plan[..k]) == PropsIssued(plan)[..k]
  {
    assert forall c :: c in plan[..k] ==> c in plan;
    PropsIssuedOfSets(plan);
    PropsIssuedOfSets(plan[..k]);
  }

  /**
   * Everything after the server address: the advanced-settings lookup on the
   * control, then, if it found an object, the remaining properties in source
   * order until one throws. Only the last call may have thrown, and only
   * property sets and sub-object queries are issued.
   */
  function ApplySettings(s: Client, e: Engine, ctl: Obj): (calls: seq<Call>)
    ensures forall c :: c in calls ==> c.SetProperty? || c.Query?
    ensures OnlyLastMayThrow(e, calls)
  {
    var lk := Resolve(e, ctl, SettingsInterfaces);
    var queries := QueryCalls(ctl, SettingsInterfaces[..lk.tried]);
    assert OnlyLastMayThrow(e, queries);
    match lk.found
    case None => queries
    case Some(adv) =>
      var plan := Plan(s, ctl, adv, SettingsOrder);
      var done := RunUntilThrow(e, plan);
      assert forall c :: c in done ==> c in plan;
      OnlyLastMayThrowAppend(e, queries, done);
      queries + done
  }

  /** How `ApplySettings` is put together: the lookup's queries, then (only if
      the newest-first lookup bound an object without a throw) a prefix of
      the plan on that object. */
  lemma SettingsShape(s: Client, e: Engine, ctl: Obj) returns (queries: seq<Call>, done: seq<Call>)
    ensures ApplySettings(s, e, ctl) == queries + done
    ensures forall c :: c in queries ==> c.Query?
    ensures FallbackThrows(e, ctl, AdvancedSettings9, AdvancedSettings) ==>
              done == [] && queries != [] && Throws(e, queries[|queries| - 1])
    ensures Newest(e, ctl, AdvancedSettings9, AdvancedSettings).None? ==> done == []
    ensures !FallbackThrows(e, ctl, AdvancedSettings9, AdvancedSettings)
            && Newest(e, ctl, AdvancedSettings9, AdvancedSettings).Some? ==>
              done == RunUntilThrow(e, Plan(s, ctl, Newest(e, ctl, AdvancedSettings9, AdvancedSettings).value, SettingsOrder))
  {
    var lk := Resolve(e, ctl, SettingsInterfaces);
    ResolvePairIsNewest(e, ctl, AdvancedSettings9, AdvancedSettings);
    queries := QueryCalls(ctl, SettingsInterfaces[..lk.tried]);
    if lk.threw {
      assert Throws(e, queries[lk.tried - 1]);
    }
    match lk.found
    case None =>
      done := [];
    case Some(adv) =>
      done := RunUntilThrow(e, Plan(s, ctl, adv, SettingsOrder));
  }

  /** The properties `ApplySettings` writes are an initial segment of the
      source order, and none at all without an advanced-settings object. */
  lemma SettingsWritePrefix(s: Client, e: Engine, ctl: Obj)
    ensures var ps := PropsIssued(ApplySettings(s, e, ctl)); |ps| <= |SettingsOrder| && ps == SettingsOrder[..|ps|]
    ensures Newest(e, ctl, AdvancedSettings9, AdvancedSettings).None? ==> PropsIssued(ApplySettings(s, e, ctl)) == []
  {
    var queries, done := SettingsShape(s, e, ctl);
    PropsIssuedAppend(queries, done);
    PropsIssuedOfNonSets(queries);
    if done != [] {
      var plan := Plan(s, ctl, Newest(e, ctl, AdvancedSettings9, AdvancedSettings).value, SettingsOrder);
      assert forall c :: c in plan ==> c.SetProperty?;
      PrefixProps(plan, |done|);
    }
  }

  /** With an advanced-settings object bound and no call throwing, `ApplySettings`
      writes every remaining property, in source order. */
  lemma SettingsComplete(s: Client, e: Engine, ctl: Obj)
    requires Newest(e, ctl, AdvancedSettings9, AdvancedSettings).Some?
    requires forall c :: c in ApplySettings(s, e, ctl) ==> !Throws(e, c)
    ensures PropsIssued(ApplySettings(s, e, ctl)) == SettingsOrder
  {
    var queries, done := SettingsShape(s, e, ctl);
    PropsIssuedAppend(queries, done);
    PropsIssuedOfNonSets(queries);
    var plan := Plan(s, ctl, Newest(e, ctl, AdvancedSettings9, AdvancedSettings).value, SettingsOrder);
    assert forall c :: c in done ==> c in queries + done;
    assert done == plan;
  }

  /**
   * Applies the client's settings to the control: the server address on the
   * control, then the settings lookup and the remaining properties. A throw
   * ends the run, so only the last call may have thrown; nothing but
   * property sets and sub-object queries is issued, and without a control
   * nothing at all.
   */
  function ConfigureClient(s: Client, e: Engine): (calls: seq<Call>)
    ensures !s.widget ==> calls == []
    ensures s.widget ==>
              |calls| > 0 && calls[0] == SetProperty(GetRdpControl(s).value, Server, ValueFor(s, Server))
    ensures forall c :: c in calls ==> c.SetProperty? || c.Query?
    ensures OnlyLastMayThrow(e, calls)
  {
    if !s.widget then []
    else
      var head := SetRdpProperty(s, Server, ValueFor(s, Server));
      if Aborted(e, head) then head
      else
        var rest := ApplySettings(s, e, GetRdpControl(s).value);
        OnlyLastMayThrowAppend(e, head, rest);
        head + rest
  }

  /**
   * The abandon-on-throw discipline of configuration: the properties written
   * are always an initial segment of the source order.
   */
  lemma ConfigureWritesPrefix(s: Client, e: Engine)
    ensures var ps := PropsIssued(ConfigureClient(s, e)); |ps| <= |PropOrder| && ps == PropOrder[..|ps|]
  {
    if s.widget {
      var ctl := GetRdpControl(s).value;
      var head := [SetProperty(ctl, Server, ValueFor(s, Server))];
      if !Aborted(e, head) {
        var rest := ApplySettings(s, e, ctl);
        SettingsWritePrefix(s, e, ctl);
        PropsIssuedAppend(head, rest);
        var ps := PropsIssued(rest);
        assert PropOrder[..|ps| + 1] == [Server] + SettingsOrder[..|ps|];
      }
    }
  }

  /** With neither advanced-settings interface answering, configuration
      returns right after the server address: no port, user name,
      resolution, colour depth, title or full-screen flag is written. */
  lemma ConfigureWithoutSettings(s: Client, e: Engine)
    requires SettingsOf(s, e).None?
    ensures PropsIssued(ConfigureClient(s, e)) == (if s.widget then [Server] else [])
  {
    if s.widget {
      var ctl := GetRdpControl(s).value;
      var head := [SetProperty(ctl, Server, ValueFor(s, Server))];
      if !Aborted(e, head) {
        SettingsWritePrefix(s, e, ctl);
        PropsIssuedAppend(head, ApplySettings(s, e, ctl));
      }
    }
  }

  /** With an advanced-settings object and no call throwing, every property is
      written, in source order. */
  lemma ConfigureComplete(s: Client, e: Engine)
    requires s.widget && SettingsOf(s, e).Some?
    requires forall c :: c in ConfigureClient(s, e) ==> !Throws(e, c)
    ensures PropsIssued(ConfigureClient(s, e)) == PropOrder
  {
    var calls := ConfigureClient(s, e);
    var ctl := GetRdpControl(s).value;
    var head := [SetProperty(ctl, Server, ValueFor(s, Server))];
    assert calls[0] in calls;
    var rest := ApplySettings(s, e, ctl);
    assert calls == head + rest;
    assert forall c :: c in rest ==> c in calls;
    SettingsComplete(s, e, ctl);
    PropsIssuedAppend(head, rest);
  }

  /** Every property set `ApplySettings` issues is aimed at the advanced-settings
      object the newest-first lookup binds, or at the control. */
  lemma SettingsAimed(s: Client, e: Engine, ctl: Obj)
    ensures forall c :: c in ApplySettings(s, e, ctl) && c.SetProperty? ==>
              && Newest(e, ctl, AdvancedSettings9, AdvancedSettings).Some?
              && Aimed(s, ctl, Newest(e, ctl, AdvancedSettings9, AdvancedSettings).value, c)
  {
    var queries, done := SettingsShape(s, e, ctl);
    if done != [] {
      var plan := Plan(s, ctl, Newest(e, ctl, AdvancedSettings9, AdvancedSettings).value, SettingsOrder);
      assert forall c :: c in done ==> c in plan;
    }
  }

  /** Each property goes to its own object — the control, or the
      advanced-settings object resolved newest first — carrying the client's
      value for it. */
  lemma ConfigureTargetsAndValues(s: Client, e: Engine)
    ensures forall c :: c in ConfigureClient(s, e) && c.SetProperty? ==>
              && c.value == ValueFor(s, c.prop)
              && Some(c.target) == (if OnSettings(c.prop) then SettingsOf(s, e) else GetRdpControl(s))
  {
    var calls := ConfigureClient(s, e);
    if s.widget {
      var ctl := GetRdpControl(s).value;
      var head := [SetProperty(ctl, Server, ValueFor(s, Server))];
      if !Aborted(e, head) {
        var rest := ApplySettings(s, e, ctl);
        SettingsAimed(s, e, ctl);
        assert calls == head + rest;
        forall c | c in calls && c.SetProperty?
          ensures c.value == ValueFor(s, c.prop)
          ensures Some(c.target) == (if OnSettings(c.prop) then SettingsOf(s, e) else GetRdpControl(s))
        {
          if c !in head {
            assert c in rest;
          }
        }
      }
    }
  }

  /** The audio redirection mode written is 0 (play on this computer) with
      sound enabled and 2 (do not play) without. */
  lemma ConfigureAudioMode(s: Client, e: Engine)
    ensures forall c :: c in ConfigureClient(s, e) && c.SetProperty? && c.prop == AudioRedirectionMode ==>
              c.value == IntVal(if Flag(s, EnableSoundField) then 0 else 2)
  {
    ConfigureTargetsAndValues(s, e);
  }
}

=== FILE: driver.dfy ===
/**
 * A client driven by a sequence of events: the application's calls, the
 * engine's callbacks and the property setters, all against one engine.
 * The lemmas here state what holds over any such sequence.
 */
module Driver {
  import opened Maybe
  import opened RdpEngine
  import opened ClientState
  import opened Setters
  import opened RemoteApp
  import opened Session

  /** Everything that can happen to a client. `DisconnectCall` also stands
      for the window's disconnect request, which is wired to the same slot. */
  datatype Event =
    | ConnectCall
    | DisconnectCall
    | EngineConnected
    | EngineDisconnected(reason: int)
    | EngineLoginComplete
    | EngineFatalError(code: int)
    | Set(u: Update)

  /** The transition one event causes. */
  function Apply(s: Client, e: Engine, ev: Event): (r: Step)
    ensures Valid(s) ==> Valid(r.state)
  {
    match ev
    case ConnectCall => ConnectToServer(s, e).step
    case DisconnectCall => DisconnectFromServer(s, e)
    case EngineConnected => OnConnected(s)
    case EngineDisconnected(reason) => OnDisconnected(s, reason)
    case EngineLoginComplete => OnLoginComplete(s, e)
    case EngineFatalError(code) => OnFatalError(s, code)
    case Set(u) => Assign(s, u)
  }

  /** Two transitions one after the other. */
  function Then(a: Step, b: Step): Step {
    Step(b.state, a.calls + b.calls, a.signals + b.signals)
  }

  /** Events taken one after another by a transition function; calls and
      signals accumulate in order. */
  function Fold(s: Client, next: (Client, Event) -> Step, evs: seq<Event>): Step
    decreases |evs|
  {
    if evs == [] then Step(s, [], [])
    else
      var first := next(s, evs[0]);
      Then(first, Fold(first.state, next, evs[1..]))
  }

  /** Taking two sequences one after the other is taking their concatenation. */
  lemma {:induction false} FoldAppend(s: Client, next: (Client, Event) -> Step, a: seq<Event>, b: seq<Event>)
    ensures Fold(s, next, a + b) == Then(Fold(s, next, a), Fold(Fold(s, next, a).state, next, b))
    decreases |a|
  {
    if a == [] {
      assert a + b == b;
      var rb := Fold(s, next, b);
      assert [] + rb.calls == rb.calls && [] + rb.signals == rb.signals;
    } else {
      var first := next(s, a[0]);
      assert (a + b)[0] == a[0];
      assert (a + b)[1..] == a[1..] + b;
      FoldAppend(first.state, next, a[1..], b);
      var ra := Fold(first.state, next, a[1..]);
      var rb := Fold(ra.state, next, b);
      assert first.calls + (ra.calls + rb.calls) == (first.calls + ra.calls) + rb.calls;
      assert first.signals + (ra.signals + rb.signals) == (first.signals + ra.signals) + rb.signals;
    }
  }

  /** The events in order against engine `e`. */
  function Run(s: Client, e: Engine, evs: seq<Event>): Step {
    Fold(s, (c, ev) => Apply(c, e, ev), evs)
  }

  lemma RunCons(s: Client, e: Engine, ev: Event, rest: seq<Event>)
    ensures Run(s, e, [ev] + rest) == Then(Apply(s, e, ev), Run(Apply(s, e, ev).state, e, rest))
  {
    assert ([ev] + rest)[0] == ev;
    assert ([ev] + rest)[1..] == rest;
  }

  lemma RunAppend(s: Client, e: Engine, a: seq<Event>, b: seq<Event>)
    ensures Run(s, e, a + b) == Then(Run(s, e, a), Run(Run(s, e, a).state, e, b))
  {
    FoldAppend(s, (c, ev) => Apply(c, e, ev), a, b);
  }

  /** A run from a well-formed client only reaches well-formed clients. */
  lemma {:induction false} RunValid(s: Client, e: Engine, evs: seq<Event>)
    requires Valid(s)
    ensures Valid(Run(s, e, evs).state)
    decreases |evs|
  {
    if evs != [] {
      RunCons(s, e, evs[0], evs[1..]);
      assert [evs[0]] + evs[1..] == evs;
      RunValid(Apply(s, e, evs[0]).state, e, evs[1..]);
    }
  }

  // ---------------------------------------------------------------------------
  // The connected flag

  /** How one event moves the `connected` flag: the engine's connected
      callback sets it, its disconnected and fatal-error callbacks and the
      application's disconnect clear it, and nothing else touches it. */
  function FlagStep(connected: bool, ev: Event): bool {
    match ev
    case EngineConnected => true
    case EngineDisconnected(_) => false
    case EngineFatalError(_) => false
    case DisconnectCall => false
    case _ => connected
  }

  /** The flag after a sequence of events, by `FlagStep` alone. */
  function ConnectedAfter(connected: bool, evs: seq<Event>): bool
    decreases |evs|
  {
    if evs == [] then connected else ConnectedAfter(FlagStep(connected, evs[0]), evs[1..])
  }

  lemma ApplyConnected(s: Client, e: Engine, ev: Event)
    ensures Apply(s, e, ev).state.connected == FlagStep(s.connected, ev)
  {
    if ev.ConnectCall? {
      ConnectToServerControl(s, e);
    }
  }

  /** The flag the client holds after any run is the one the callbacks and
      the disconnect call dictate: connecting never sets it by itself. */
  lemma {:induction false} RunConnected(s: Client, e: Engine, evs: seq<Event>)
    ensures Run(s, e, evs).state.connected == ConnectedAfter(s.connected, evs)
    decreases |evs|
  {
    if evs != [] {
      var first := Apply(s, e, evs[0]);
      ApplyConnected(s, e, evs[0]);
      RunConnected(first.state, e, evs[1..]);
    }
  }

  // ---------------------------------------------------------------------------
  // The properties

  /** The value the last setter call for `f` in `evs` wrote, if there is one. */
  function LastSet(evs: seq<Event>, f: Field): Option<Value>
    decreases |evs|
  {
    if evs == [] then None
    else
      match LastSet(evs[1..], f)
      case Some(v) => Some(v)
      case None => if evs[0].Set? && FieldOf(evs[0].u) == f then Some(ValueOf(evs[0].u)) else None
  }

  lemma ApplyRead(s: Client, e: Engine, ev: Event, f: Field)
    ensures Read(Apply(s, e, ev).state.props, f) ==
              if ev.Set? && FieldOf(ev.u) == f then ValueOf(ev.u) else Read(s.props, f)
  {
    if ev.ConnectCall? {
      ConnectToServerControl(s, e);
    }
  }

  /** After any run every getter returns what the last setter call for it
      wrote, or its value before the run when there was none: connecting,
      disconnecting and the callbacks never change a property. */
  lemma {:induction false} RunReads(s: Client, e: Engine, evs: seq<Event>, f: Field)
    ensures Read(Run(s, e, evs).state.props, f) == LastSet(evs, f).GetOr(Read(s.props, f))
    decreases |evs|
  {
    if evs != [] {
      var first := Apply(s, e, evs[0]);
      ApplyRead(s, e, evs[0], f);
      RunReads(first.state, e, evs[1..], f);
    }
  }

  // ---------------------------------------------------------------------------
  // The control

  lemma ApplyControl(s: Client, e: Engine, ev: Event)
    ensures var r := Apply(s, e, ev);
            && multiset(r.calls)[CreateControl] <= (if s.widget then 0 else 1)
            && (s.widget ==> r.state.widget)
            && (InitSucceeds(e) && multiset(r.calls)[CreateControl] > 0 ==> r.state.widget)
  {
    match ev
    case ConnectCall =>
      ConnectToServerControl(s, e);
      if Validated(s) && !s.widget {
        ConnectToServerBinds(s, e);
      }
    case DisconnectCall =>
      assert CreateControl !in DisconnectFromServer(s, e).calls;
    case EngineLoginComplete =>
      assert CreateControl !in OnLoginComplete(s, e).calls;
    case _ =>
  }

  /** Once the control exists it stays, and no event creates another. */
  lemma {:induction false} RunKeepsControl(s: Client, e: Engine, evs: seq<Event>)
    requires s.widget
    ensures Run(s, e, evs).state.widget
    ensures CreateControl !in Run(s, e, evs).calls
    decreases |evs|
  {
    if evs != [] {
      var first := Apply(s, e, evs[0]);
      ApplyControl(s, e, evs[0]);
      RunKeepsControl(first.state, e, evs[1..]);
      assert CreateControl !in first.calls;
    }
  }

  /** On an engine where creation succeeds, no sequence of events, however
      many connects it holds, creates the control more than once, and none
      when it already exists. */
  lemma {:induction false} RunCreatesAtMostOnce(s: Client, e: Engine, evs: seq<Event>)
    requires InitSucceeds(e)
    ensures multiset(Run(s, e, evs).calls)[CreateControl] <= (if s.widget then 0 else 1)
    decreases |evs|
  {
    if s.widget {
      RunKeepsControl(s, e, evs);
    } else if evs != [] {
      var first := Apply(s, e, evs[0]);
      var rest := Run(first.state, e, evs[1..]);
      ApplyControl(s, e, evs[0]);
      RunCreatesAtMostOnce(first.state, e, evs[1..]);
      assert multiset(first.calls + rest.calls) == multiset(first.calls) + multiset(rest.calls);
    }
  }

  // ---------------------------------------------------------------------------
  // Two end-to-end sessions

  /** The control calls go to once creation has succeeded on `e`. */
  function BoundControl(e: Engine): Obj {
    Newest(e, Widget, IMsRdpClient10, IMsRdpClient9).GetOr(Widget)
  }

  /** Filling in the server and the user name. */
  function DesktopFill(): seq<Event> {
    [Set(SetText(ServerField, "10.0.0.5")), Set(SetText(UsernameField, "alice"))]
  }

  /** The engine reports the connection, then the login. */
  function LoginEvents(): seq<Event> {
    [EngineConnected, EngineLoginComplete]
  }

  /** An ordinary desktop session: fill in server and user, connect, and let
      the engine report the connection and the login. */
  function DesktopScript(): seq<Event> {
    DesktopFill() + ([ConnectCall] + LoginEvents())
  }

  /** Filling in the server and the user name on a new client. */
  lemma FillInDesktop(e: Engine)
    ensures var r := Run(NewClient(), e, DesktopFill());
            && Validated(r.state) && !r.state.widget && !Flag(r.state, RemoteAppModeField)
            && !r.state.connected
            && r.signals == [Changed(TextOf(ServerField)), Changed(TextOf(UsernameField))]
  {
    var s0 := NewClient();
    var ev1, ev2 := Set(SetText(ServerField, "10.0.0.5")), Set(SetText(UsernameField, "alice"));
    var r1 := Apply(s0, e, ev1);
    ApplyRead(s0, e, ev1, TextOf(UsernameField));
    ApplyRead(s0, e, ev1, FlagOf(RemoteAppModeField));
    ApplyRead(r1.state, e, ev2, TextOf(ServerField));
    ApplyRead(r1.state, e, ev2, FlagOf(RemoteAppModeField));
    RunCons(r1.state, e, ev2, []);
    RunCons(s0, e, ev1, [ev2]);
    assert DesktopFill() == [ev1] + [ev2];
  }

  /** A validated connect outside remote-app mode that creates the control and
      whose `Connect()` returns reports nothing and leaves `connected` alone. */
  lemma QuietConnect(s: Client, e: Engine)
    requires Validated(s) && !s.widget && !Flag(s, RemoteAppModeField)
    requires InitSucceeds(e)
    requires !Throws(e, Connect(BoundControl(e)))
    ensures var r := Run(s, e, [ConnectCall]);
            && r.signals == []
            && !Flag(r.state, RemoteAppModeField)
  {
    ConnectToServerBinds(s, e);
    ConnectToServerControl(s, e);
    ConnectToServerSignals(s, e);
    assert GetRdpControl(ConnectToServer(s, e).step.state) == Some(BoundControl(e));
    RunCons(s, e, ConnectCall, []);
  }

  /** Outside remote-app mode, the connection and login callbacks leave the
      client connected and report exactly the connection. */
  lemma ConnectedThenLoggedIn(s: Client, e: Engine)
    requires !Flag(s, RemoteAppModeField)
    ensures var r := Run(s, e, LoginEvents());
            && r.state.connected
            && r.signals == [ConnectedChanged, ConnectionSuccess]
  {
    var r1 := Apply(s, e, EngineConnected);
    RunCons(r1.state, e, EngineLoginComplete, []);
    RunCons(s, e, EngineConnected, [EngineLoginComplete]);
    assert LoginEvents() == [EngineConnected] + [EngineLoginComplete];
  }

  /** From a validated client without a control, outside remote-app mode:
      connect, then the engine reports the connection and the login. */
  lemma ConnectAndLogIn(s: Client, e: Engine)
    requires Validated(s) && !s.widget && !Flag(s, RemoteAppModeField)
    requires InitSucceeds(e)
    requires !Throws(e, Connect(BoundControl(e)))
    ensures var r := Run(s, e, [ConnectCall] + LoginEvents());
            && r.state.connected
            && r.signals == [ConnectedChanged, ConnectionSuccess]
  {
    QuietConnect(s, e);
    var conn := Run(s, e, [ConnectCall]);
    ConnectedThenLoggedIn(conn.state, e);
    RunAppend(s, e, [ConnectCall], LoginEvents());
  }

  /** On an engine where creation succeeds and `Connect()` returns, the
      desktop session ends connected and reports the two property changes,
      the connection and its success, and nothing else: no connection error
      and nothing about remote applications. */
  lemma DesktopSession(e: Engine)
    requires InitSucceeds(e)
    requires !Throws(e, Connect(BoundControl(e)))
    ensures var r := Run(NewClient(), e, DesktopScript());
            && r.state.connected
            && r.signals == [Changed(TextOf(ServerField)), Changed(TextOf(UsernameField)),
                             ConnectedChanged, ConnectionSuccess]
  {
    var s0 := NewClient();
    FillInDesktop(e);
    var fill := Run(s0, e, DesktopFill());
    ConnectAndLogIn(fill.state, e);
    RunAppend(s0, e, DesktopFill(), [ConnectCall] + LoginEvents());
  }

  /** A run of setter calls alone changes nothing but the properties and
      makes no engine call. */
  lemma {:induction false} RunSetters(s: Client, e: Engine, evs: seq<Event>)
    requires forall i :: 0 <= i < |evs| ==> evs[i].Set?
    ensures Run(s, e, evs).state == s.(props := Run(s, e, evs).state.props)
    ensures Run(s, e, evs).calls == []
    decreases |evs|
  {
    if evs != [] {
      RunCons(s, e, evs[0], evs[1..]);
      assert [evs[0]] + evs[1..] == evs;
      RunSetters(Apply(s, e, evs[0]).state, e, evs[1..]);
    }
  }

  /** The remote program the newest-first lookup finds on the bound control. */
  function BoundProgram(e: Engine): Option<Obj> {
    Newest(e, BoundControl(e), RemoteProgram2, RemoteProgram)
  }

  /** On an engine where creation succeeds, the remote-program lookup finds
      an object without throwing and `Connect()` returns. */
  predicate RemoteAppReady(e: Engine) {
    && InitSucceeds(e)
    && !Throws(e, Connect(BoundControl(e)))
    && !FallbackThrows(e, BoundControl(e), RemoteProgram2, RemoteProgram)
    && BoundProgram(e).Some?
  }

  /** A validated connect in remote-app mode on a ready engine binds the
      remote program the lookup finds and leaves the settings alone.
      `RemoteConnect` restates this for a connect event inside a run; the two
      are kept apart so that each proof stays small. */
  lemma RemoteConnectBinds(s: Client, e: Engine)
    requires Validated(s) && !s.widget && Flag(s, RemoteAppModeField)
    requires RemoteAppReady(e)
    ensures var r := ConnectToServer(s, e).step;
            && r.state.remoteProgram == BoundProgram(e)
            && r.state.props == s.props && r.state.connected == s.connected
  {
    ConnectToServerBinds(s, e);
    ConnectToServerControl(s, e);
    var r := ConnectToServer(s, e).step;
    assert GetRdpControl(r.state) == Some(BoundControl(e));
    ConnectToServerProgram(s, e);
  }

  /** A connect attempt starts no program and reports only errors.
      `ConnectEventStartsNothing` restates this for a connect event inside a
      run, kept apart for the same reason. */
  lemma ConnectStartsNothing(s: Client, e: Engine)
    ensures var r := ConnectToServer(s, e).step;
            && (forall c :: c in r.calls ==> !c.StartProgram?)
            && (forall g :: g in r.signals ==> g.ConnectionError? || g.RemoteAppError?)
  {
    ConnectToServerSignals(s, e);
    ConnectToServerCalls(s, e);
  }

  /** `RemoteConnectBinds` for a one-event run: the state it leaves ... */
  lemma RemoteConnect(s: Client, e: Engine)
    requires Validated(s) && !s.widget && Flag(s, RemoteAppModeField)
    requires RemoteAppReady(e)
    ensures var r := Run(s, e, [ConnectCall]);
            && r.state.remoteProgram == BoundProgram(e)
            && r.state.props == s.props && r.state.connected == s.connected
  {
    RemoteConnectBinds(s, e);
    RunCons(s, e, ConnectCall, []);
  }

  /** ... and, as `ConnectStartsNothing`, what it issues and reports. */
  lemma ConnectEventStartsNothing(s: Client, e: Engine)
    ensures var r := Run(s, e, [ConnectCall]);
            && (forall c :: c in r.calls ==> !c.StartProgram?)
            && (forall g :: g in r.signals ==> g.ConnectionError? || g.RemoteAppError?)
  {
    ConnectStartsNothing(s, e);
    RunCons(s, e, ConnectCall, []);
  }

  /** In remote-app mode with a bound remote program and a path, the
      connection and login callbacks start the program once, by the first
      strategy when that returns, and report the start last. */
  lemma RemoteLogIn(s: Client, e: Engine)
    requires Flag(s, RemoteAppModeField) && Text(s, ExecutablePathField) != [] && s.remoteProgram.Some?
    requires !Throws(e, StartProgram(s.remoteProgram.value, QStringArgs, LaunchArgs(s)))
    ensures var r := Run(s, e, LoginEvents());
            && r.state.connected
            && r.calls == [StartProgram(s.remoteProgram.value, QStringArgs, LaunchArgs(s))]
            && r.signals == [ConnectedChanged, ConnectionSuccess, RemoteAppStarted]
  {
    var r1 := Apply(s, e, EngineConnected);
    RunCons(r1.state, e, EngineLoginComplete, []);
    RunCons(s, e, EngineConnected, [EngineLoginComplete]);
    assert LoginEvents() == [EngineConnected] + [EngineLoginComplete];
  }

  /** The whole remote-app session is the connect followed by exactly the
      program start and the three callback signals. */
  lemma RemoteSessionShape(s: Client, e: Engine)
    requires Validated(s) && !s.widget && Flag(s, RemoteAppModeField) && Text(s, ExecutablePathField) != []
    requires RemoteAppReady(e)
    requires !Throws(e, StartProgram(BoundProgram(e).value, QStringArgs, LaunchArgs(s)))
    ensures var conn := Run(s, e, [ConnectCall]);
            var r := Run(s, e, [ConnectCall] + LoginEvents());
            && r.state.connected
            && r.calls == conn.calls + [StartProgram(BoundProgram(e).value, QStringArgs, LaunchArgs(s))]
            && r.signals == conn.signals + [ConnectedChanged, ConnectionSuccess] + [RemoteAppStarted]
  {
    RemoteConnect(s, e);
    var conn := Run(s, e, [ConnectCall]);
    RemoteLogIn(conn.state, e);
    RunAppend(s, e, [ConnectCall], LoginEvents());
  }

  /**
   * A remote-app session from any validated client in remote-app mode that
   * names a program and has no control yet, on a ready engine whose first
   * launch strategy returns: connect, then the engine reports the
   * connection and the login. The client ends connected; the program is
   * started exactly once, as the very last engine call, on the bound remote
   * program with the client's six launch arguments; and `remoteAppStarted`
   * is the last signal and is emitted only there.
   */
  lemma RemoteSession(s: Client, e: Engine)
    requires Validated(s) && !s.widget && Flag(s, RemoteAppModeField) && Text(s, ExecutablePathField) != []
    requires RemoteAppReady(e)
    requires !Throws(e, StartProgram(BoundProgram(e).value, QStringArgs, LaunchArgs(s)))
    ensures var r := Run(s, e, [ConnectCall] + LoginEvents());
            && r.state.connected
            && |r.calls| > 0
            && r.calls[|r.calls| - 1] == StartProgram(BoundProgram(e).value, QStringArgs, LaunchArgs(s))
            && (forall c :: c in r.calls[..|r.calls| - 1] ==> !c.StartProgram?)
            && |r.signals| > 0
            && r.signals[|r.signals| - 1] == RemoteAppStarted
            && RemoteAppStarted !in r.signals[..|r.signals| - 1]
  {
    ConnectEventStartsNothing(s, e);
    RemoteSessionShape(s, e);
    var conn := Run(s, e, [ConnectCall]);
    var r := Run(s, e, [ConnectCall] + LoginEvents());
    var before := conn.signals + [ConnectedChanged, ConnectionSuccess];
    assert r.calls[..|r.calls| - 1] == conn.calls;
    assert r.signals[..|r.signals| - 1] == before;
  }
}

=== FILE: maybe.dfy ===
/** A value that may be absent: the model's stand-in for a possibly-null pointer. */
module Maybe {

  datatype Option<+T> = None | Some(value: T) {

    /** The wrapped value, or `default` when absent. */
    function GetOr(default: T): T {
      match this
      case Some(v) => v
      case None => default
    }
  }
}

=== FILE: rdp_engine.dfy ===
/**
 * The remote-display ActiveX engine, seen from the client as an oracle.
 *
 * The client never looks inside the engine: it creates the control, asks it
 * for named sub-objects, sets properties and invokes methods, and each of
 * those either returns or throws. An `Engine` value fixes which objects exist
 * and which calls throw; every transition of the client takes one as a
 * parameter and reports the calls it made, in order.
 */
module RdpEngine {
  import opened Maybe

  /** Names the client passes to `querySubObject`. */
  datatype SubName =
    | IMsRdpClient10 | IMsRdpClient9
    | AdvancedSettings9 | AdvancedSettings
    | RemoteProgram2 | RemoteProgram

  /** An engine object: the control widget, or a sub-object obtained from another object. */
  datatype Obj = Widget | Sub(parent: Obj, name: SubName)

  /** Properties the client writes on the control or on its advanced settings.
      The constructors follow the names the client passes, up to letter case
      (`RdpPort` for "RDPPort", `AllowDesktopComposition` for
      "allowDesktopComposition"); the bitmap-cache name keeps its misspelling. */
  datatype Prop =
    | Server | RdpPort | UserName | DesktopWidth | DesktopHeight | ColorDepth
    | FullScreenTitle | FullScreen
    | Compress | BitmapPeristence | AllowDesktopComposition
    | AudioRedirectionMode | RedirectClipboard | RedirectPrinters

  datatype Value = IntVal(i: int) | BoolVal(b: bool) | StrVal(str: string)

  /** The two signatures under which `ServerStartProgram` is invoked. */
  datatype Convention = QStringArgs | BstrArgs

  /** The six positional arguments of `ServerStartProgram`. */
  datatype ProgramArgs = ProgramArgs(
    executable: string,
    file: string,
    workingDirectory: string,
    expandWorkingDirectory: bool,
    arguments: string,
    expandArguments: bool)

  /** Every interaction the client has with the engine. */
  datatype Call =
    | CreateControl
    | Query(on: Obj, name: SubName)
    | SetProperty(target: Obj, prop: Prop, value: Value)
    | Connect(target: Obj)
    | Disconnect(target: Obj)
    | StartProgram(target: Obj, convention: Convention, args: ProgramArgs)

  /** What constructing the control yields: an object, a null pointer, or an exception. */
  datatype Creation = Created | CreatedNull | CreationThrows

  /** A fixed engine. Whether creating the control throws is given by
      `creation` alone; `throwing` decides every other call, and a
      `CreateControl` listed in it has no effect. */
  datatype Engine = Engine(creation: Creation, objects: set<Obj>, throwing: set<Call>)

  predicate Throws(e: Engine, c: Call) {
    c in e.throwing
  }

  /** What one `querySubObject` call yields. */
  datatype Answer = Threw | Null | Got(obj: Obj)

  function Ask(e: Engine, on: Obj, name: SubName): Answer {
    if Throws(e, Query(on, name)) then Threw
    else if Sub(on, name) in e.objects then Got(Sub(on, name))
    else Null
  }

  /** The reference meaning of a two-step fallback: the newer sub-object when it
      answers, else the older one when it answers, else nothing. */
  function Newest(e: Engine, on: Obj, newer: SubName, older: SubName): Option<Obj> {
    if Ask(e, on, newer).Got? then Some(Sub(on, newer))
    else if Ask(e, on, older).Got? then Some(Sub(on, older))
    else None
  }

  /** True when a two-step fallback is cut short by a throwing query. */
  predicate FallbackThrows(e: Engine, on: Obj, newer: SubName, older: SubName) {
    || Ask(e, on, newer) == Threw
    || (Ask(e, on, newer) == Null && Ask(e, on, older) == Threw)
  }

  function QueryCalls(on: Obj, names: seq<SubName>): seq<Call> {
    seq(|names|, i requires 0 <= i < |names| => Query(on, names[i]))
  }

  /** Outcome of trying candidate names in order: the object bound (if any), how
      many queries were issued, and whether the last of them threw. */
  datatype Lookup = Lookup(found: Option<Obj>, tried: nat, threw: bool)

  /**
   * Ordered capability resolution: query `names` on `on` newest first, stop at
   * the first query that yields an object or throws. Every query before the
   * last one returned null; all names are tried only when all returned null.
   */
  function Resolve(e: Engine, on: Obj, names: seq<SubName>): (r: Lookup)
    ensures r.tried <= |names|
    ensures |names| > 0 ==> r.tried > 0
    ensures forall i :: 0 <= i < r.tried - 1 ==> Ask(e, on, names[i]) == Null
    ensures r.threw <==> 0 < r.tried && Ask(e, on, names[r.tried - 1]) == Threw
    ensures r.found.Some? <==> 0 < r.tried && Ask(e, on, names[r.tried - 1]).Got?
    ensures r.found.Some? ==> r.found.value == Sub(on, names[r.tried - 1])
    ensures r.tried < |names| ==> r.threw || r.found.Some?
  {
    if |names| == 0 then Lookup(None, 0, false)
    else
      match Ask(e, on, names[0])
      case Threw => Lookup(None, 1, true)
      case Got(o) => Lookup(Some(o), 1, false)
      case Null =>
        var rest := Resolve(e, on, names[1..]);
        rest.(tried := rest.tried + 1)
  }

  /** For two candidates, the generic resolver binds exactly the reference
      `Newest` unless a query threw, and a throw binds nothing. */
  lemma ResolvePairIsNewest(e: Engine, on: Obj, newer: SubName, older: SubName)
    ensures var r := Resolve(e, on, [newer, older]);
            && (r.threw <==> FallbackThrows(e, on, newer, older))
            && (!r.threw ==> r.found == Newest(e, on, newer, older))
            && (r.threw ==> r.found.None?)
            && (Ask(e, on, newer).Got? ==> r.tried == 1)
  {
    var r := Resolve(e, on, [newer, older]);
    if Ask(e, on, newer) == Null {
      assert [newer, older][1..] == [older];
    }
  }

  /** No call except possibly the last one threw: a throw ends every run. */
  predicate OnlyLastMayThrow(e: Engine, calls: seq<Call>) {
    forall i :: 0 <= i < |calls| - 1 ==> !Throws(e, calls[i])
  }

  lemma {:induction false} OnlyLastMayThrowAppend(e: Engine, a: seq<Call>, b: seq<Call>)
    requires OnlyLastMayThrow(e, a) && OnlyLastMayThrow(e, b)
    requires a == [] || !Throws(e, a[|a| - 1])
    ensures OnlyLastMayThrow(e, a + b)
  {
    forall i | 0 <= i < |a + b| - 1
      ensures !Throws(e, (a + b)[i])
    {
      if i < |a| - 1 {
        assert (a + b)[i] == a[i];
      } else if i == |a| - 1 {
        assert (a + b)[i] == a[|a| - 1];
      } else {
        assert (a + b)[i] == b[i - |a|];
      }
    }
  }

  /** True when the last call of a non-empty run threw. */
  predicate Aborted(e: Engine, done: seq<Call>) {
    |done| > 0 && Throws(e, done[|done| - 1])
  }

  /**
   * Runs `plan` inside one try-block: calls are issued in order and the first
   * one that throws abandons the rest. The result is the prefix actually issued.
   */
  function RunUntilThrow(e: Engine, plan: seq<Call>): (done: seq<Call>)
    ensures |done| <= |plan| && done == plan[..|done|]
    ensures OnlyLastMayThrow(e, done)
    ensures |done| < |plan| ==> Aborted(e, done)
    ensures (forall c :: c in plan ==> !Throws(e, c)) <==> done == plan && !Aborted(e, done)
  {
    if |plan| == 0 then []
    else if Throws(e, plan[0]) then [plan[0]]
    else [plan[0]] + RunUntilThrow(e, plan[1..])
  }

  /** True when the last call of a non-empty run returned normally. */
  predicate Succeeded(e: Engine, done: seq<Call>) {
    |done| > 0 && !Throws(e, done[|done| - 1])
  }

  /**
   * Runs an ordered list of alternative strategies: each is tried only if all
   * before it threw, and the first that returns wins. The run succeeds exactly
   * when some strategy in the list would not throw.
   */
  function FirstSuccess(e: Engine, attempts: seq<Call>): (done: seq<Call>)
    ensures |done| <= |attempts| && done == attempts[..|done|]
    ensures |attempts| > 0 ==> |done| > 0
    ensures forall i :: 0 <= i < |done| - 1 ==> Throws(e, done[i])
    ensures |done| < |attempts| ==> Succeeded(e, done)
    ensures Succeeded(e, done) <==> exists i :: 0 <= i < |attempts| && !Throws(e, attempts[i])
  {
    if |attempts| == 0 then []
    else if !Throws(e, attempts[0]) then [attempts[0]]
    else [attempts[0]] + FirstSuccess(e, attempts[1..])
  }
}

=== FILE: remote_app.dfy ===
/**
 * Remote-app ("RemoteApp") mode: binding the remote-program sub-object before
 * connecting, and launching the configured program once login completes.
 */
module RemoteApp {
  import opened Maybe
  import opened RdpEngine
  import opened ClientState

  /** Candidate remote-program interfaces, newest first. */
  const ProgramInterfaces: seq<SubName> := [RemoteProgram2, RemoteProgram]

  /**
   * Binds the remote-program sub-object on the current control. With no
   * control or with remote-app mode off it does nothing. A lookup that finds
   * nothing, or throws, only emits `remoteAppError`; it never stops the
   * connect that follows. When the very first query throws, the assignment
   * never happens and the previously bound object stays in place.
   */
  function ConfigureRemoteApp(s: Client, e: Engine): (r: Step)
    ensures GetRdpControl(s).None? || !Flag(s, RemoteAppModeField) ==> r == Step(s, [], [])
    ensures r.state == s.(remoteProgram := r.state.remoteProgram)
    ensures forall c :: c in r.calls ==> c.Query?
    ensures |r.signals| <= 1
    ensures GetRdpControl(s).Some? && Flag(s, RemoteAppModeField) ==>
              var ctl := GetRdpControl(s).value;
              && (!FallbackThrows(e, ctl, RemoteProgram2, RemoteProgram) ==>
                    r.state.remoteProgram == Newest(e, ctl, RemoteProgram2, RemoteProgram))
              && (r.signals == [] <==>
                    !FallbackThrows(e, ctl, RemoteProgram2, RemoteProgram)
                    && Newest(e, ctl, RemoteProgram2, RemoteProgram).Some?)
              && (r.signals == [RemoteAppError(ProgramQueryException)] <==>
                    FallbackThrows(e, ctl, RemoteProgram2, RemoteProgram))
              && (r.signals == [RemoteAppError(ProgramInterfaceUnavailable)] <==>
                    && !FallbackThrows(e, ctl, RemoteProgram2, RemoteProgram)
                    && Newest(e, ctl, RemoteProgram2, RemoteProgram).None?)
              && (Ask(e, ctl, RemoteProgram2) == Threw ==> r.state.remoteProgram == s.remoteProgram)
              && (Ask(e, ctl, RemoteProgram2) == Null && Ask(e, ctl, RemoteProgram) == Threw ==>
                    r.state.remoteProgram.None?)
    ensures Valid(s) ==> Valid(r.state)
  {
    match GetRdpControl(s)
    case None => Step(s, [], [])
    case Some(ctl) =>
      if !Flag(s, RemoteAppModeField) then Step(s, [], [])
      else
        var lk := Resolve(e, ctl, ProgramInterfaces);
        ResolvePairIsNewest(e, ctl, RemoteProgram2, RemoteProgram);
        var program := if lk.threw && lk.tried == 1 then s.remoteProgram else lk.found;
        var signals :=
          if lk.threw then [RemoteAppError(ProgramQueryException)]
          else if lk.found.None? then [RemoteAppError(ProgramInterfaceUnavailable)]
          else [];
        Step(s.(remoteProgram := program), QueryCalls(ctl, ProgramInterfaces[..lk.tried]), signals)
  }

  /** The six `ServerStartProgram` arguments, in order, taken from the client. An
      unset optional string is already the empty string here. */
  function LaunchArgs(s: Client): ProgramArgs {
    ProgramArgs(Text(s, ExecutablePathField), Text(s, FilePathField), Text(s, WorkingDirectoryField),
                Flag(s, ExpandWorkingDirectoryField), Text(s, ArgumentsField), Flag(s, ExpandArgumentsField))
  }

  /** The two launch strategies, in the order they are tried. */
  function LaunchStrategies(s: Client, program: Obj): seq<Call> {
    [StartProgram(program, QStringArgs, LaunchArgs(s)), StartProgram(program, BstrArgs, LaunchArgs(s))]
  }

  /**
   * Starts the configured program on the bound remote-program object. An
   * empty executable path or a missing remote-program object is reported
   * without any engine call. Otherwise the QString signature is tried first
   * and the BSTR signature only if that threw. Exactly one outcome signal is
   * emitted: `remoteAppStarted` when some attempt returned, else
   * `remoteAppError` naming the last attempt that failed. The client state,
   * including `connected`, is never changed.
   */
  function StartRemoteApp(s: Client, e: Engine): (r: Step)
    ensures r.state == s
    ensures |r.signals| == 1
    ensures r.signals[0] == RemoteAppStarted || r.signals[0].RemoteAppError?
    ensures Text(s, ExecutablePathField) == [] ==> r.calls == [] && r.signals == [RemoteAppError(MissingExecutablePath)]
    ensures Text(s, ExecutablePathField) != [] && s.remoteProgram.None? ==>
              r.calls == [] && r.signals == [RemoteAppError(NoRemoteProgram)]
    ensures Text(s, ExecutablePathField) != [] && s.remoteProgram.Some? ==> |r.calls| > 0
    ensures |r.calls| <= 2
    ensures |r.calls| > 0 ==>
              && s.remoteProgram.Some?
              && r.calls[0] == StartProgram(s.remoteProgram.value, QStringArgs, LaunchArgs(s))
    ensures |r.calls| == 2 <==> |r.calls| > 0 && Throws(e, r.calls[0])
    ensures |r.calls| == 2 ==>
              r.calls[1] == StartProgram(s.remoteProgram.value, BstrArgs, LaunchArgs(s))
    ensures r.signals[0] == RemoteAppStarted <==> |r.calls| > 0 && !Throws(e, r.calls[|r.calls| - 1])
    ensures r.signals[0] == RemoteAppError(AllAttemptsFailed(BstrArgs)) <==>
              |r.calls| == 2 && Throws(e, r.calls[1])
  {
    if Text(s, ExecutablePathField) == [] then Step(s, [], [RemoteAppError(MissingExecutablePath)])
    else
      match s.remoteProgram
      case None => Step(s, [], [RemoteAppError(NoRemoteProgram)])
      case Some(program) =>
        var done := FirstSuccess(e, LaunchStrategies(s, program));
        if Succeeded(e, done) then Step(s, done, [RemoteAppStarted])
        else Step(s, done, [RemoteAppError(AllAttemptsFailed(done[|done| - 1].convention))])
  }
}

=== FILE: session.dfy ===
/**
 * Session control: lazy creation of the control with newest-first interface
 * binding, connect and disconnect, and the engine's four callbacks.
 */
module Session {
  import opened Maybe
  import opened RdpEngine
  import opened ClientState
  import opened Configure
  import opened RemoteApp

  /** Candidate client interfaces on the widget, newest first. */
  const ClientInterfaces: seq<SubName> := [IMsRdpClient10, IMsRdpClient9]

  /**
   * The part of control initialisation after the widget was constructed:
   * bind the newest client interface it answers to. A throwing query ends
   * initialisation with a `connectionError`, discards the widget and leaves
   * no interface bound; a null answer from both leaves the widget as the
   * target of all calls.
   */
  function BindClientInterface(s: Client, e: Engine): (r: Step)
    ensures forall c :: c in r.calls ==> c.Query? && c.on == Widget
    ensures r.state.widget <==> !FallbackThrows(e, Widget, IMsRdpClient10, IMsRdpClient9)
    ensures r.signals == (if r.state.widget then [] else [ConnectionError(ControlInitException)])
    ensures r.state.widget ==> r.state.rdpClient == Newest(e, Widget, IMsRdpClient10, IMsRdpClient9)
    ensures !r.state.widget ==> r.state.rdpClient.None?
    ensures r.state == s.(widget := r.state.widget, rdpClient := r.state.rdpClient)
  {
    var lk := Resolve(e, Widget, ClientInterfaces);
    ResolvePairIsNewest(e, Widget, IMsRdpClient10, IMsRdpClient9);
    var queries := QueryCalls(Widget, ClientInterfaces[..lk.tried]);
    if lk.threw then Step(s.(widget := false, rdpClient := None), queries, [ConnectionError(ControlInitException)])
    else Step(s.(widget := true, rdpClient := lk.found), queries, [])
  }

  /**
   * Creates the ActiveX control unless one already exists, then binds the
   * newest client interface it answers to (IMsRdpClient10, else
   * IMsRdpClient9, else none: calls then go to the widget itself). A null
   * control or an exception during creation or binding reports a
   * `connectionError` and leaves no control behind.
   */
  function InitializeControl(s: Client, e: Engine): (r: Step)
    ensures s.widget ==> r == Step(s, [], [])
    ensures !s.widget ==> |r.calls| > 0 && r.calls[0] == CreateControl
    ensures multiset(r.calls)[CreateControl] == (if s.widget then 0 else 1)
    ensures !s.widget ==>
              (r.state.widget <==> e.creation == Created && !FallbackThrows(e, Widget, IMsRdpClient10, IMsRdpClient9))
    ensures !s.widget ==> (r.state.widget <==> r.signals == [])
    ensures !r.state.widget ==>
              || r.signals == [ConnectionError(ControlCreateFailed)]
              || r.signals == [ConnectionError(ControlInitException)]
    ensures !s.widget && e.creation == CreatedNull ==> r.signals == [ConnectionError(ControlCreateFailed)]
    ensures !s.widget && e.creation == CreationThrows ==> r.signals == [ConnectionError(ControlInitException)]
    ensures !s.widget && e.creation == Created && FallbackThrows(e, Widget, IMsRdpClient10, IMsRdpClient9) ==>
              r.signals == [ConnectionError(ControlInitException)]
    ensures !s.widget && r.state.widget ==>
              r.state.rdpClient == Newest(e, Widget, IMsRdpClient10, IMsRdpClient9)
    ensures forall c :: c in r.calls ==> c == CreateControl || c.Query?
    ensures r.state == s.(widget := r.state.widget, rdpClient := r.state.rdpClient)
    ensures Valid(s) ==> Valid(r.state)
  {
    if s.widget then Step(s, [], [])
    else
      match e.creation
      case CreationThrows =>
        Step(s.(rdpClient := None), [CreateControl], [ConnectionError(ControlInitException)])
      case CreatedNull =>
        Step(s, [CreateControl], [ConnectionError(ControlCreateFailed)])
      case Created =>
        var bound := BindClientInterface(s, e);
        assert CreateControl !in bound.calls;
        Step(bound.state, [CreateControl] + bound.calls, bound.signals)
  }

  /** Creates the window on first use, titled with the current server, and shows it. */
  function ShowWindow(s: Client): (r: Client)
    ensures r == s.(window := r.window)
    ensures r.window.Open? && r.window.visible
    ensures s.window.Open? ==> r.window.serverName == s.window.serverName
    ensures s.window.NoWindow? ==> r.window.serverName == Text(s, ServerField)
  {
    match s.window
    case NoWindow => s.(window := Open(Text(s, ServerField), true))
    case Open(name, _) => s.(window := Open(name, true))
  }

  function HideWindow(w: Window): Window {
    match w
    case NoWindow => NoWindow
    case Open(name, _) => Open(name, false)
  }

  datatype ConnectResult = ConnectResult(step: Step, ok: bool)

  /** The properties and the `connected` flag, which connecting leaves alone. */
  predicate SameSettings(a: Client, b: Client) {
    a.props == b.props && a.connected == b.connected
  }

  /** Binds the remote program when remote-app mode is on. Whatever the lookup
      reports, only `remoteProgram` may change and only queries are issued. */
  function PrepareRemoteApp(s: Client, e: Engine): (r: Step)
    ensures r.state == s.(remoteProgram := r.state.remoteProgram)
    ensures forall c :: c in r.calls ==> c.Query?
    ensures forall g :: g in r.signals ==> g.RemoteAppError?
    ensures !Flag(s, RemoteAppModeField) ==> r == Step(s, [], [])
    ensures Valid(s) ==> Valid(r.state)
  {
    if Flag(s, RemoteAppModeField) then
      var app := ConfigureRemoteApp(s, e);
      assert |app.signals| <= 1;
      app
    else Step(s, [], [])
  }

  /** No call but the last one is a `Connect()`. */
  predicate ConnectOnlyLast(calls: seq<Call>) {
    forall i :: 0 <= i < |calls| - 1 ==> !calls[i].Connect?
  }

  lemma {:induction false} ConnectOnlyLastAppend(a: seq<Call>, b: seq<Call>)
    requires forall c :: c in a ==> !c.Connect?
    requires ConnectOnlyLast(b)
    ensures ConnectOnlyLast(a + b)
  {
    forall i | 0 <= i < |a + b| - 1
      ensures !(a + b)[i].Connect?
    {
      if i < |a| {
        assert (a + b)[i] in a;
      } else {
        assert (a + b)[i] == b[i - |a|];
      }
    }
  }

  /**
   * The part of `connectToServer` that runs once the control exists:
   * configure, bind the remote program in remote-app mode, show the window,
   * then issue `Connect()` as the last call whatever the remote-program
   * lookup reported. Succeeds exactly when `Connect()` does not throw.
   */
  function LaunchSession(s: Client, e: Engine): (r: ConnectResult)
    requires s.widget
    ensures r.step.state.widget && r.step.state.rdpClient == s.rdpClient
    ensures |r.step.calls| > 0 && r.step.calls[|r.step.calls| - 1] == Connect(GetRdpControl(r.step.state).value)
    ensures r.ok <==> !Throws(e, Connect(GetRdpControl(r.step.state).value))
    ensures Valid(s) ==> Valid(r.step.state)
  {
    var configured := ConfigureClient(s, e);
    var app := PrepareRemoteApp(s, e);
    var s2 := ShowWindow(app.state);
    var connect := Connect(GetRdpControl(s2).value);
    var failed := Throws(e, connect);
    var signals := if failed then app.signals + [ConnectionError(ConnectCallFailed)] else app.signals;
    ConnectResult(Step(s2, configured + app.calls + [connect], signals), !failed)
  }

  /** Launching begins with exactly the calls `configureClient` makes (same
      properties, values and targets) and sets no other property; with
      `LaunchSessionOrder` they all come before the final `Connect()`. */
  lemma LaunchSessionConfigures(s: Client, e: Engine)
    requires s.widget
    ensures ConfigureClient(s, e) <= LaunchSession(s, e).step.calls
    ensures PropsIssued(LaunchSession(s, e).step.calls) == PropsIssued(ConfigureClient(s, e))
  {
    var app := PrepareRemoteApp(s, e);
    var rest := app.calls + [Connect(GetRdpControl(ShowWindow(app.state)).value)];
    assert LaunchSession(s, e).step.calls == ConfigureClient(s, e) + rest;
    PropsIssuedOfNonSets(rest);
    PropsIssuedAppend(ConfigureClient(s, e), rest);
  }

  /** Launching issues `Connect()` only as its last call, before it only
      property sets and queries, and never creates a control. */
  lemma LaunchSessionOrder(s: Client, e: Engine)
    requires s.widget
    ensures var calls := LaunchSession(s, e).step.calls;
            && ConnectOnlyLast(calls)
            && (forall c :: c in calls ==> c.SetProperty? || c.Query? || c.Connect?)
  {
    var before := ConfigureClient(s, e) + PrepareRemoteApp(s, e).calls;
    assert forall c :: c in before ==> c.SetProperty? || c.Query?;
    var calls := LaunchSession(s, e).step.calls;
    forall i | 0 <= i < |calls| - 1
      ensures !calls[i].Connect?
    {
      assert calls[i] == before[i];
      assert calls[i] in before;
    }
  }

  /** Launching leaves the window shown and the settings and `connected` flag
      alone; it reports a `connectionError` last exactly when it fails, and
      that error is the failed `Connect()`. */
  lemma LaunchSessionOutcome(s: Client, e: Engine)
    requires s.widget
    ensures var r := LaunchSession(s, e);
            && r.step.state.window.Open? && r.step.state.window.visible
            && SameSettings(s, r.step.state)
            && (r.ok ==> forall g :: g in r.step.signals ==> !g.ConnectionError?)
            && (!r.ok ==> |r.step.signals| > 0 && r.step.signals[|r.step.signals| - 1] == ConnectionError(ConnectCallFailed))
            && (forall g :: g in r.step.signals ==> g.ConnectionError? || g.RemoteAppError?)
            && (!Flag(s, RemoteAppModeField) ==> forall g :: g in r.step.signals ==> g.ConnectionError?)
  {
    var app := PrepareRemoteApp(s, e);
    assert forall g :: g in app.signals ==> !g.ConnectionError?;
  }

  /** In remote-app mode, launching binds the remote program the newest-first
      lookup on the control finds, unless that lookup threw; outside it the
      binding is left alone. The control calls go to is unchanged. */
  lemma LaunchSessionProgram(s: Client, e: Engine)
    requires s.widget
    ensures var r := LaunchSession(s, e);
            var ctl := GetRdpControl(s).value;
            && GetRdpControl(r.step.state) == GetRdpControl(s)
            && (Flag(s, RemoteAppModeField) && !FallbackThrows(e, ctl, RemoteProgram2, RemoteProgram) ==>
                  r.step.state.remoteProgram == Newest(e, ctl, RemoteProgram2, RemoteProgram))
            && (!Flag(s, RemoteAppModeField) ==> r.step.state.remoteProgram == s.remoteProgram)
  {
  }

  /**
   * The part of `connectToServer` after validation: create the control if
   * missing, then launch. A control that cannot be created adds
   * `ControlNotInitialized` after the creation error and ends the attempt.
   */
  function EstablishSession(s: Client, e: Engine): (r: ConnectResult)
    ensures r.ok <==> r.step.state.widget && !Throws(e, Connect(GetRdpControl(r.step.state).value))
    ensures r.step.state.widget ==>
              |r.step.calls| > 0 && r.step.calls[|r.step.calls| - 1] == Connect(GetRdpControl(r.step.state).value)
    ensures Valid(s) ==> Valid(r.step.state)
  {
    var init := InitializeControl(s, e);
    if !init.state.widget then
      ConnectResult(Step(init.state, init.calls, init.signals + [ConnectionError(ControlNotInitialized)]), false)
    else
      var launch := LaunchSession(init.state, e);
      ConnectResult(Step(launch.step.state, init.calls + launch.step.calls, init.signals + launch.step.signals), launch.ok)
  }

  /** `Connect()` is issued at most once, as the last call, and only with the window shown. */
  lemma EstablishSessionOrder(s: Client, e: Engine)
    ensures var r := EstablishSession(s, e);
            && ConnectOnlyLast(r.step.calls)
            && (r.step.state.widget ==> r.step.state.window.Open? && r.step.state.window.visible)
  {
    var init := InitializeControl(s, e);
    if init.state.widget {
      var launch := LaunchSession(init.state, e);
      LaunchSessionOrder(init.state, e);
      LaunchSessionOutcome(init.state, e);
      ConnectOnlyLastAppend(init.calls, launch.step.calls);
    }
  }

  /** Establishing a session creates the control exactly once when it is
      missing and never otherwise, keeps an existing control and its bound
      client interface, and leaves the settings and `connected` alone. */
  lemma EstablishSessionControl(s: Client, e: Engine)
    ensures var r := EstablishSession(s, e);
            && multiset(r.step.calls)[CreateControl] == (if s.widget then 0 else 1)
            && (s.widget ==> r.step.state.widget && r.step.state.rdpClient == s.rdpClient)
            && SameSettings(s, r.step.state)
  {
    var init := InitializeControl(s, e);
    if init.state.widget {
      var launch := LaunchSession(init.state, e);
      LaunchSessionOrder(init.state, e);
      LaunchSessionOutcome(init.state, e);
      assert CreateControl !in launch.step.calls;
      assert multiset(init.calls + launch.step.calls) == multiset(init.calls) + multiset(launch.step.calls);
    }
  }

  /** Control creation succeeds on this engine: the constructor returns a
      control and the client-interface lookup does not throw. */
  predicate InitSucceeds(e: Engine) {
    e.creation == Created && !FallbackThrows(e, Widget, IMsRdpClient10, IMsRdpClient9)
  }

  /** When no control exists, establishing a session leaves one exactly when
      creation succeeds on the engine, bound to the newest client interface. */
  lemma EstablishSessionBinds(s: Client, e: Engine)
    requires !s.widget
    ensures var r := EstablishSession(s, e);
            && (r.step.state.widget <==> InitSucceeds(e))
            && (r.step.state.widget ==> r.step.state.rdpClient == Newest(e, Widget, IMsRdpClient10, IMsRdpClient9))
  {
  }

  /** The remote-program binding after establishing a session, as launching leaves it. */
  lemma EstablishSessionProgram(s: Client, e: Engine)
    ensures var r := EstablishSession(s, e);
            var ctl := GetRdpControl(r.step.state);
            && (r.step.state.widget && Flag(s, RemoteAppModeField)
                && !FallbackThrows(e, ctl.value, RemoteProgram2, RemoteProgram) ==>
                  r.step.state.remoteProgram == Newest(e, ctl.value, RemoteProgram2, RemoteProgram))
            && (!Flag(s, RemoteAppModeField) ==> r.step.state.remoteProgram == s.remoteProgram)
  {
    var init := InitializeControl(s, e);
    if init.state.widget {
      LaunchSessionProgram(init.state, e);
    }
  }

  /** A failed attempt ends with a `connectionError`; a successful one emits
      none. Without a control the creation error is followed by
      `ControlNotInitialized`; with one, the failure is the `Connect()` call. */
  lemma EstablishSessionSignals(s: Client, e: Engine)
    ensures var r := EstablishSession(s, e);
            && (!r.step.state.widget ==>
                  r.step.signals == InitializeControl(s, e).signals + [ConnectionError(ControlNotInitialized)])
            && (r.step.state.widget && !r.ok ==>
                  |r.step.signals| > 0 && r.step.signals[|r.step.signals| - 1] == ConnectionError(ConnectCallFailed))
            && (r.ok ==> forall g :: g in r.step.signals ==> !g.ConnectionError?)
            && (!r.ok ==> |r.step.signals| > 0 && r.step.signals[|r.step.signals| - 1].ConnectionError?)
            && (forall g :: g in r.step.signals ==> g.ConnectionError? || g.RemoteAppError?)
            && (!Flag(s, RemoteAppModeField) ==> forall g :: g in r.step.signals ==> g.ConnectionError?)
  {
    var init := InitializeControl(s, e);
    if init.state.widget {
      assert init.signals == [];
      var launch := LaunchSession(init.state, e);
      LaunchSessionOutcome(init.state, e);
      assert init.signals + launch.step.signals == launch.step.signals;
    } else {
      assert forall g :: g in init.signals ==> g.ConnectionError?;
    }
  }

  /** Both connection parameters are filled in: the validation in `connectToServer` passes. */
  predicate Validated(s: Client) {
    Text(s, ServerField) != [] && Text(s, UsernameField) != []
  }

  /**
   * `connectToServer`. An empty server is rejected first and an empty user
   * name second; either emits one `connectionError`, touches nothing and
   * returns false. Otherwise the control is created if missing (a failure
   * reports and returns false) and the session is launched. The result is
   * true exactly when validation passed, the control exists and `Connect()`
   * did not throw, which is then the last call issued. The `connected` flag
   * is left to the callbacks.
   */
  function ConnectToServer(s: Client, e: Engine): (r: ConnectResult)
    ensures Text(s, ServerField) == [] ==>
              r == ConnectResult(Step(s, [], [ConnectionError(EmptyServer)]), false)
    ensures Text(s, ServerField) != [] && Text(s, UsernameField) == [] ==>
              r == ConnectResult(Step(s, [], [ConnectionError(EmptyUsername)]), false)
    ensures r.ok <==>
              Validated(s) && r.step.state.widget && !Throws(e, Connect(GetRdpControl(r.step.state).value))
    ensures Validated(s) && r.step.state.widget ==>
              |r.step.calls| > 0 && r.step.calls[|r.step.calls| - 1] == Connect(GetRdpControl(r.step.state).value)
    ensures Valid(s) ==> Valid(r.step.state)
  {
    if Text(s, ServerField) == [] then ConnectResult(Step(s, [], [ConnectionError(EmptyServer)]), false)
    else if Text(s, UsernameField) == [] then ConnectResult(Step(s, [], [ConnectionError(EmptyUsername)]), false)
    else EstablishSession(s, e)
  }

  /** `Connect()` is issued at most once per connect attempt, only as its last
      call and only once the window is shown. */
  lemma ConnectToServerOrder(s: Client, e: Engine)
    ensures var r := ConnectToServer(s, e);
            && ConnectOnlyLast(r.step.calls)
            && (Validated(s) && r.step.state.widget ==> r.step.state.window.Open? && r.step.state.window.visible)
  {
    if Validated(s) {
      EstablishSessionOrder(s, e);
    }
  }

  /** A connect attempt creates a control exactly when validation passes and
      none exists, never more than one, and keeps an existing control; the
      settings and `connected` are untouched. */
  lemma ConnectToServerControl(s: Client, e: Engine)
    ensures var r := ConnectToServer(s, e);
            && multiset(r.step.calls)[CreateControl] == (if Validated(s) && !s.widget then 1 else 0)
            && (s.widget ==> r.step.state.widget && r.step.state.rdpClient == s.rdpClient)
            && SameSettings(s, r.step.state)
  {
    if Validated(s) {
      EstablishSessionControl(s, e);
    }
  }

  /** A failed attempt always ends with a `connectionError`; a successful one
      emits none. Only connection and remote-app errors are reported, and outside
      remote-app mode only connection errors. */
  lemma ConnectToServerSignals(s: Client, e: Engine)
    ensures var r := ConnectToServer(s, e);
            && (Validated(s) && !r.step.state.widget ==>
                  r.step.signals == InitializeControl(s, e).signals + [ConnectionError(ControlNotInitialized)])
            && (Validated(s) && r.step.state.widget && !r.ok ==>
                  |r.step.signals| > 0 && r.step.signals[|r.step.signals| - 1] == ConnectionError(ConnectCallFailed))
            && (r.ok ==> forall g :: g in r.step.signals ==> !g.ConnectionError?)
            && (!r.ok ==> |r.step.signals| > 0 && r.step.signals[|r.step.signals| - 1].ConnectionError?)
            && (forall g :: g in r.step.signals ==> g.ConnectionError? || g.RemoteAppError?)
            && (!Flag(s, RemoteAppModeField) ==> forall g :: g in r.step.signals ==> g.ConnectionError?)
  {
    if Validated(s) {
      EstablishSessionSignals(s, e);
    }
  }

  /** A validated connect with no control leaves one exactly when creation
      succeeds, bound to the newest client interface the widget answers to. */
  lemma ConnectToServerBinds(s: Client, e: Engine)
    requires Validated(s) && !s.widget
    ensures var r := ConnectToServer(s, e);
            && (r.step.state.widget <==> InitSucceeds(e))
            && (r.step.state.widget ==> r.step.state.rdpClient == Newest(e, Widget, IMsRdpClient10, IMsRdpClient9))
  {
    EstablishSessionBinds(s, e);
  }

  /** A connect attempt only creates the control, queries, sets properties and
      connects: it never disconnects and never starts a program. */
  lemma ConnectToServerCalls(s: Client, e: Engine)
    ensures forall c :: c in ConnectToServer(s, e).step.calls ==>
              c.CreateControl? || c.Query? || c.SetProperty? || c.Connect?
  {
    if Validated(s) {
      var init := InitializeControl(s, e);
      if init.state.widget {
        LaunchSessionOrder(init.state, e);
      }
    }
  }

  /** In remote-app mode a validated connect that leaves a control binds the
      remote program the newest-first lookup finds on it, unless the lookup
      threw; outside remote-app mode the binding is untouched. */
  lemma ConnectToServerProgram(s: Client, e: Engine)
    ensures var r := ConnectToServer(s, e);
            var ctl := GetRdpControl(r.step.state);
            && (Validated(s) && r.step.state.widget && Flag(s, RemoteAppModeField)
                && !FallbackThrows(e, ctl.value, RemoteProgram2, RemoteProgram) ==>
                  r.step.state.remoteProgram == Newest(e, ctl.value, RemoteProgram2, RemoteProgram))
            && (!Flag(s, RemoteAppModeField) ==> r.step.state.remoteProgram == s.remoteProgram)
  {
    if Validated(s) {
      EstablishSessionProgram(s, e);
    }
  }

  /** A connect that leaves a control sets exactly the properties
      `configureClient` sets on the client as initialisation left it, all
      before the final `Connect()`; a connect that is rejected, or whose
      control cannot be created, sets none. */
  lemma ConnectToServerConfigures(s: Client, e: Engine)
    ensures var r := ConnectToServer(s, e).step;
            && (Validated(s) && r.state.widget ==>
                  InitializeControl(s, e).calls + ConfigureClient(InitializeControl(s, e).state, e) <= r.calls)
            && (Validated(s) && r.state.widget ==>
                  PropsIssued(r.calls) == PropsIssued(ConfigureClient(InitializeControl(s, e).state, e)))
            && (!r.state.widget || !Validated(s) ==> PropsIssued(r.calls) == [])
  {
    if Validated(s) {
      var init := InitializeControl(s, e);
      PropsIssuedOfNonSets(init.calls);
      if init.state.widget {
        var launch := LaunchSession(init.state, e);
        assert ConnectToServer(s, e).step.calls == init.calls + launch.step.calls;
        LaunchSessionConfigures(init.state, e);
        PropsIssuedAppend(init.calls, launch.step.calls);
      }
    } else {
      PropsIssuedOfNonSets([]);
    }
  }

  /**
   * `disconnectFromServer`. `Disconnect()` is issued only when the control
   * exists and `connected` is set; a throw from it is swallowed. Afterwards
   * `connected` is false and the window, if any, is hidden. No signal is
   * emitted, and the remote-program object stays bound.
   */
  function DisconnectFromServer(s: Client, e: Engine): (r: Step)
    ensures !r.state.connected
    ensures r.signals == []
    ensures r.calls != [] <==> s.widget && s.connected
    ensures forall c :: c in r.calls ==> c == Disconnect(GetRdpControl(s).value)
    ensures |r.calls| <= 1
    ensures r.state.window.Open? <==> s.window.Open?
    ensures r.state.window.Open? ==> !r.state.window.visible && r.state.window.serverName == s.window.serverName
    ensures r.state == s.(connected := false, window := r.state.window)
    ensures Valid(s) ==> Valid(r.state)
  {
    var calls := if s.widget && s.connected then [Disconnect(GetRdpControl(s).value)] else [];
    Step(s.(connected := false, window := HideWindow(s.window)), calls, [])
  }

  /** `onConnected`: the session is up. */
  function OnConnected(s: Client): (r: Step)
    ensures r.state.connected
    ensures r.state == s.(connected := true)
    ensures r.calls == []
    ensures r.signals == [ConnectedChanged, ConnectionSuccess]
  {
    Step(s.(connected := true), [], [ConnectedChanged, ConnectionSuccess])
  }

  /** `onDisconnected`: the session is gone; the reason code is ignored. */
  function OnDisconnected(s: Client, reason: int): (r: Step)
    ensures !r.state.connected
    ensures r.state == s.(connected := false)
    ensures r.calls == []
    ensures r.signals == [ConnectedChanged]
  {
    Step(s.(connected := false), [], [ConnectedChanged])
  }

  /** `onFatalError`: the session is gone; `connectedChanged` comes first, then
      the code is reported once as a `connectionError`. */
  function OnFatalError(s: Client, code: int): (r: Step)
    ensures !r.state.connected
    ensures r.state == s.(connected := false)
    ensures r.calls == []
    ensures r.signals == [ConnectedChanged, ConnectionError(Fatal(code))]
  {
    Step(s.(connected := false), [], [ConnectedChanged, ConnectionError(Fatal(code))])
  }

  /**
   * `onLoginComplete`: runs `startRemoteApp` if and only if remote-app mode is
   * on, which shows as exactly one remote-app outcome signal. Neither the state
   * nor `connected` changes.
   */
  function OnLoginComplete(s: Client, e: Engine): (r: Step)
    ensures r.state == s
    ensures r.signals != [] <==> Flag(s, RemoteAppModeField)
    ensures !Flag(s, RemoteAppModeField) ==> r.calls == []
    ensures Flag(s, RemoteAppModeField) ==> r == StartRemoteApp(s, e)
    ensures Flag(s, RemoteAppModeField) ==>
              |r.signals| == 1 && (r.signals[0] == RemoteAppStarted || r.signals[0].RemoteAppError?)
    ensures Flag(s, RemoteAppModeField) && Text(s, ExecutablePathField) == [] ==>
              r.calls == [] && r.signals == [RemoteAppError(MissingExecutablePath)]
    ensures Flag(s, RemoteAppModeField) && Text(s, ExecutablePathField) != [] && s.remoteProgram.None? ==>
              r.calls == [] && r.signals == [RemoteAppError(NoRemoteProgram)]
    ensures r.signals == [RemoteAppStarted] <==>
              && Flag(s, RemoteAppModeField)
              && s.remoteProgram.Some?
              && |r.calls| > 0
              && r.calls[0] == StartProgram(s.remoteProgram.value, QStringArgs, LaunchArgs(s))
              && !Throws(e, r.calls[|r.calls| - 1])
    ensures forall c :: c in r.calls ==> c.StartProgram? && s.remoteProgram == Some(c.target)
  {
    if Flag(s, RemoteAppModeField) then StartRemoteApp(s, e) else Step(s, [], [])
  }
}

=== FILE: setters.dfy ===
/**
 * The change-only property setters. Each writes one property and emits that
 * property's change signal, but only when the new value differs from the
 * stored one; they never touch the engine.
 */
module Setters {
  import opened RdpEngine
  import opened ClientState

  /** One setter call with its argument: `setServer(v)` is `SetText(ServerField, v)`,
      `setPort(v)` is `SetNumber(PortField, v)`, `setEnableSound(v)` is
      `SetFlag(EnableSoundField, v)`, and so on for all eighteen setters. */
  datatype Update =
    | SetText(textField: TextField, text: string)
    | SetNumber(numberField: NumberField, number: int)
    | SetFlag(flagField: FlagField, flag: bool)

  /** The property an update writes. */
  function FieldOf(u: Update): Field {
    match u
    case SetText(k, _) => TextOf(k)
    case SetNumber(k, _) => NumberOf(k)
    case SetFlag(k, _) => FlagOf(k)
  }

  /** The value an update writes. */
  function ValueOf(u: Update): Value {
    match u
    case SetText(_, v) => StrVal(v)
    case SetNumber(_, v) => IntVal(v)
    case SetFlag(_, v) => BoolVal(v)
  }

  /** The property getter. */
  function Read(p: Properties, f: Field): Value {
    match f
    case TextOf(k) => StrVal(p.texts[k])
    case NumberOf(k) => IntVal(p.numbers[k])
    case FlagOf(k) => BoolVal(p.flags[k])
  }

  function Write(p: Properties, u: Update): Properties {
    match u
    case SetText(k, v) => p.(texts := p.texts[k := v])
    case SetNumber(k, v) => p.(numbers := p.numbers[k := v])
    case SetFlag(k, v) => p.(flags := p.flags[k := v])
  }

  /**
   * Calls the setter named by `u`. Afterwards the getter returns the new
   * value, every other property reads as before, nothing but the properties
   * changed, no engine call is made, and exactly one change signal is
   * emitted if and only if the value differed; otherwise the state is
   * unchanged.
   */
  function Assign(s: Client, u: Update): (r: Step)
    ensures Read(r.state.props, FieldOf(u)) == ValueOf(u)
    ensures forall f :: f != FieldOf(u) ==> Read(r.state.props, f) == Read(s.props, f)
    ensures r.state == s.(props := r.state.props)
    ensures r.calls == []
    ensures r.signals == (if Read(s.props, FieldOf(u)) == ValueOf(u) then [] else [Changed(FieldOf(u))])
    ensures Read(s.props, FieldOf(u)) == ValueOf(u) ==> r.state == s
  {
    if Read(s.props, FieldOf(u)) == ValueOf(u) then Step(s, [], [])
    else Step(s.(props := Write(s.props, u)), [], [Changed(FieldOf(u))])
  }

  /** Setting the same value twice: the second call changes nothing and is silent. */
  lemma AssignIdempotent(s: Client, u: Update)
    ensures var once := Assign(s, u);
            Assign(once.state, u) == Step(once.state, [], [])
  {
  }

  /** Setting two different properties commutes, state and signal set alike. */
  lemma AssignCommutes(s: Client, u: Update, w: Update)
    requires FieldOf(u) != FieldOf(w)
    ensures var uw := Assign(Assign(s, u).state, w);
            var wu := Assign(Assign(s, w).state, u);
            && uw.state == wu.state
            && multiset(Assign(s, u).signals + uw.signals) == multiset(Assign(s, w).signals + wu.signals)
  {
    var su, sw := Assign(s, u).state.props, Assign(s, w).state.props;
    var a, b := Assign(Assign(s, u).state, w).state.props, Assign(Assign(s, w).state, u).state.props;
    forall f
      ensures Read(a, f) == Read(b, f)
    {
      if f == FieldOf(u) {
        assert Read(a, f) == Read(su, f) == ValueOf(u);
      } else if f == FieldOf(w) {
        assert Read(b, f) == Read(sw, f) == ValueOf(w);
      } else {
        assert Read(a, f) == Read(su, f) == Read(s.props, f);
        assert Read(b, f) == Read(sw, f) == Read(s.props, f);
      }
    }
    ReadDeterminesProperties(a, b);
    assert Read(su, FieldOf(w)) == Read(s.props, FieldOf(w));
    assert Read(sw, FieldOf(u)) == Read(s.props, FieldOf(u));
  }

  /** The getter determines the properties: two stores that read alike are equal. */
  lemma ReadDeterminesProperties(a: Properties, b: Properties)
    requires forall f :: Read(a, f) == Read(b, f)
    ensures a == b
  {
    forall k: TextField
      ensures a.texts[k] == b.texts[k]
    {
      assert Read(a, TextOf(k)) == Read(b, TextOf(k));
    }
    forall k: NumberField
      ensures a.numbers[k] == b.numbers[k]
    {
      assert Read(a, NumberOf(k)) == Read(b, NumberOf(k));
    }
    forall k: FlagField
      ensures a.flags[k] == b.flags[k]
    {
      assert Read(a, FlagOf(k)) == Read(b, FlagOf(k));
    }
    assert a.texts == b.texts;
    assert a.numbers == b.numbers;
    assert a.flags == b.flags;
  }
}
